=== FILE: README.md ===
# pingafter core, modelled in Dafny

pingafter is a dead-man's-switch service. A user creates **destinations**:
check-in timers with a status, an optional scheduled start and a
deadline. Each destination names an emergency-contact **group**, which is a
list of e-mail addresses. The user starts, snoozes, stops, edits and deletes
these timers.

Accounts have two token lifecycles:
- e-mail verification, issued at sign-up and on request;
- password reset.

An account also has a *dead switch*, which may only be switched on when a
heir address is known.

This project models the services that hold those rules, as pure functions
over immutable stores:
- the destinations service and the `destinations` table;
- the groups service and the `groups` table;
- the users service and the `users` table;
- the auth service;
- the class-validator rules on the request bodies.

It proves the properties those services promise.

## Layout

- `results.dfy`: `Option`, `Result`, and the HTTP failures the services throw (`Failure`).
- `text.dfy`: the JavaScript string functions the services use:
  - `\s` and `trim`;
  - UTF-16 and validator.js lengths;
  - `join`, `split('@')[0]`, `toString` and `slice(-4)`;
  - the groups service's e-mail pattern, with two equivalent readings of it.
- `user_entity.dfy`, `group_entity.dfy`, `destination_entity.dfy`: the three tables.
  - Records, defaults and foreign-key rules.
  - The unique constraints on users.
  - `findOne` as "the first matching row".
- `destination_dto.dfy`, `group_dto.dfy`, `user_dto.dfy`, `signup_dto.dfy`: the validation rules on request bodies.
- `destinations.dfy`, `groups.dfy`, `users.dfy`, `auth.dfy`: the four services, one function or method per operation.
- `destinations_lifecycle.dfy`, `auth_tokens.dfy`: properties that relate several operations.
  - For destinations: which transitions are possible and what each one undoes or forbids.
  - For tokens: issue, expiry, supersede and single use.

## Modelling choices

**Stores.**
- Destinations and groups are maps keyed by id.
- Users are a sequence of rows in scan order, so a lookup by a unique column is "the first row that matches".
- Each service call is one atomic step from store to store, or a failure.

**Clock and generated values.**
- The clock is an input `now`, in milliseconds.
- A generated uuid is an input that the caller guarantees is fresh.
- The hash from bcrypt is an input value.
- bcrypt's compare is a function parameter.
- Token verification is an input outcome, `Auth.JwtCheck`. It is either the decoded claims, the expiry error, or any other error.
- Signing a token is modelled as the claims it signs.

**Failures.**
- `Results.Failure` names the HTTP exception and its message.
- Errors that are not HTTP exceptions become `ServerError`. These are thrown `Error`s, database rejections, and the `TypeError` of a missing deadline.

**Validation.**
- class-validator's `IsEmail` and `IsUUID` are function parameters.
- `Length` and `MinLength` count code points, except the two variation selectors U+FE0E and U+FE0F.
- The service's `.length` counts UTF-16 code units.
- The body rules are stated as predicates of their own, and the services accept any body of the declared shape. This assumes that only the sign-up route runs a validation pipe (see "## Left out").

## Model

| member | source | states |
|---|---|---|
| DestinationEntity.ParseStatusInvertsStatusValue | src/destinations/entities/destination.entity.ts:5-11 | a string is a status exactly when it is one of the five stored values, and reading a status's value gives that status back |
| DestinationEntity.DefaultRow | src/destinations/entities/destination.entity.ts:57-68 | a row created without a status is SAVED, both alarm flags are false, and the schedule, start time and deadline are absent |
| DestinationEntity.DeleteOwnersDestinations | src/destinations/entities/destination.entity.ts:33-37 | deleting a user removes exactly that user's destinations and leaves every other row as it was |
| DestinationEntity.ClearDeletedGroup | src/destinations/entities/destination.entity.ts:39-43 | deleting a group keeps every destination, clears `groupId` where it named the group, and changes nothing else |
| DestinationDto.ValidCreateDtoIgnoresActionAndHours | src/destinations/dto/create-destination.dto.ts:4-32 | a create body is valid exactly when its name and address are non-empty, its group id is a uuid and its status is one of the five values; `action` and `timerHours` never affect validity |
| Destinations.Create | src/destinations/destinations.service.ts:15-37 | a group the caller does not own is refused; startNow gives ACTIVE with deadline `now + hours·3600000`; startLater needs a start time and gives SCHEDULED; any other action gives SAVED; a missing `timerHours` on startNow fails with a database error; for a body of the declared shape, only the new id is added, alarm flags start false and a row that is not started has no start time |
| Destinations.Stop | src/destinations/destinations.service.ts:46-53 | NotFound for another user's or a missing row, BadRequest unless ACTIVE; otherwise the row becomes COMPLETED and differs from before in its status alone |
| Destinations.Snooze | src/destinations/destinations.service.ts:55-64 | missing and non-ACTIVE rows get the same BadRequest; an ACTIVE row without a deadline fails; otherwise the deadline moves exactly one hour later, the pre-alarm flag clears, and nothing else changes |
| Destinations.Assign | src/destinations/destinations.service.ts:74 | for each of the seven body fields, a given value replaces the row's (a status as the enum member it names) and an absent one keeps the row's; id, owner, creation time, start time, hours and both alarm flags are kept; an empty body changes nothing |
| Destinations.Update | src/destinations/destinations.service.ts:66-76 | NotFound when missing, Forbidden unless SAVED or SCHEDULED; the save fails with a database error for a status outside the enum or a `groupId` naming no group, leaving the store unchanged; otherwise the merged row replaces the old one |
| Destinations.Delete | src/destinations/destinations.service.ts:78-87 | NotFound when missing, BadRequest unless SAVED; afterwards the id is absent and every other row is unchanged |
| Destinations.GetActive | src/destinations/destinations.service.ts:39-44 | there is no result exactly when the caller has no ACTIVE destination; a result is one of the caller's ACTIVE rows |
| Destinations.FindAll | src/destinations/destinations.service.ts:89-91 | the result lists exactly the caller's destinations, each once, newest first |
| Destinations.InsertByAgeKeepsOrder | src/destinations/destinations.service.ts:90 | inserting into a newest-first list keeps it newest first |
| Destinations.InsertByAge | src/destinations/destinations.service.ts:90 | insertion adds one entry and loses none: the result is a permutation of the old list plus the new entry |
| DestinationLifecycle.CreateSavedThenDeleteRestores | src/destinations/destinations.service.ts:15-37 | saving a destination and then deleting it gives back the original store |
| DestinationLifecycle.StopIsFinal | src/destinations/destinations.service.ts:46-87 | after a stop, a second stop, a snooze, an edit and a delete are all refused |
| DestinationLifecycle.SnoozeTwiceAddsTwoHours | src/destinations/destinations.service.ts:55-64 | two snoozes move the deadline exactly two hours later and keep the row ACTIVE |
| DestinationLifecycle.StartNowThenSnooze | src/destinations/destinations.service.ts:25-29 | a timer started for h hours and snoozed once ends `h + 1` hours after its start |
| DestinationLifecycle.UpdateMayActivateWithoutDeadline | src/destinations/destinations.service.ts:61 | an edit can make a SAVED row without a deadline ACTIVE, and snoozing that row then fails on the missing deadline |
| DestinationLifecycle.UpdateReachesAlarmSent | src/destinations/dto/create-destination.dto.ts:26-28 | an edit naming "alarm_sent" moves a SAVED or SCHEDULED row straight to ALARM_SENT and leaves `alarmProcessed` as it was |
| DestinationLifecycle.OnlyUpdateEntersAlarmSent | src/destinations/destinations.service.ts:15-87 | create, stop, snooze and delete never bring a row into ALARM_SENT |
| DestinationLifecycle.SeveralActivePerUser | src/destinations/destinations.service.ts:25-29 | starting a timer while another runs leaves the caller with both ACTIVE |
| DestinationLifecycle.CreateIgnoresPayloadStatus | src/destinations/destinations.service.ts:19-23 | the status in a create body has no effect on the outcome |
| DestinationLifecycle.GroupReferencesKept | src/destinations/entities/destination.entity.ts:39-43 | the foreign key on `groupId` survives create, update and group deletion: every destination that names a group names an existing one |
| DestinationLifecycle.OnlyTheTargetRowChanges | src/destinations/destinations.service.ts:46-76 | stop, snooze and update change the store at the target id and nowhere else |
| GroupEntity.DeleteOwnersGroups | src/groups/entities/group.entity.ts:15-19 | deleting a user removes exactly that user's groups |
| GroupDto.UpdateRulesMatchCreateRules | src/groups/dto/group.dto.ts:3-24 | an update body carrying both fields is valid exactly when the same fields make a valid create body; the empty update body is valid |
| GroupDto.NameRuleBounds | src/groups/dto/group.dto.ts:4-6 | a name without variation selectors passes exactly when it has 2 to 30 characters; shorter names never pass |
| Groups.InvalidEmails | src/groups/groups.service.ts:57 | the filtered list holds exactly the addresses the pattern rejects |
| Groups.InvalidEmailsKeepsOrder | src/groups/groups.service.ts:57 | filtering keeps the input's order: the rejected addresses of a concatenation are those of each half, in the same order |
| Groups.ValidateEmails | src/groups/groups.service.ts:55-61 | the check fails exactly when some address does not match the pattern, and then with a BadRequest |
| Groups.ValidateEmailsNamesEveryInvalid | src/groups/groups.service.ts:58-59 | the failure message contains every rejected address verbatim |
| Groups.CreateGroup | src/groups/groups.service.ts:14-28 | the group count is checked first, then the contact count, then the address format; the first failing check decides the error; success adds one group owned by the caller |
| Groups.CreateGroupCount | src/groups/groups.service.ts:15-18 | a successful create raises the caller's group count by one to at most ten and leaves other users' groups alone |
| Groups.CreateGroupKeepsInvariants | src/groups/groups.service.ts:14-28 | create keeps "at most ten groups per user" and "at most twenty well-formed contacts per group" |
| Groups.UpdateGroup | src/groups/groups.service.ts:30-42 | NotFound for a group the caller does not own; contacts in the body, even none, are checked (more than twenty is a BadRequest, and a rejected address gives the same error, with the same message, as on create) and replace the stored ones; the name changes only when the new one is non-empty; nothing else changes |
| Groups.UpdateGroupKeepsInvariants | src/groups/groups.service.ts:30-42 | update keeps both store invariants and the set of group ids |
| Groups.UpdateGroupIgnoresEmptyName | src/groups/groups.service.ts:40 | an empty name and an absent one have the same effect |
| Groups.DeleteGroup | src/groups/groups.service.ts:44-49 | NotFound exactly when the caller does not own the group; otherwise the group is removed and destinations that named it are cleared |
| Groups.DeleteGroupRemovesIt | src/groups/groups.service.ts:44-49 | after a delete the caller owns one group fewer, no destination refers to the group, and the invariants hold |
| Groups.GetUserGroups | src/groups/groups.service.ts:51-53 | the result is exactly the caller's groups, as many as the caller owns |
| Text.EmailFormatMatchesRegex | src/groups/groups.service.ts:56 | the scanning reading of the e-mail pattern accepts exactly the strings the regular expression matches |
| Text.TrimEmptyIffAllWhitespace | src/users/users.service.ts:78 | trimming gives the empty string exactly when the input is all whitespace |
| Text.DecimalStringEndsWithLowDigits | src/auth/auth.service.ts:74 | the last four characters of a clock reading of four or more digits are its four low decimal digits |
| Text.JoinContainsParts | src/groups/groups.service.ts:59 | every part of a joined list appears verbatim in the joined string |
| UserEntity.FindUniqueRow | src/users/entities/user.entity.ts:5-12 | under the unique constraints, a lookup by id, e-mail or username finds the one row that holds the value |
| UserEntity.NewRow | src/users/entities/user.entity.ts:29-54 | a new row is verified only when asked, has the dead switch off, and has no tokens and no heir |
| UserEntity.Insert | src/users/entities/user.entity.ts:8-12 | an insert fails exactly when the e-mail address or the username is taken; otherwise it appends the row and keeps the columns unique |
| UserEntity.UpdateWhereKeepsUnique | src/users/entities/user.entity.ts:5-12 | an update that leaves id, e-mail and username alone keeps them unique |
| UserEntity.DefaultSelectHidesPassword | src/users/entities/user.entity.ts:17-18 | two rows that differ only in their password load the same entity by default |
| Users.FindByEmailOrUsername | src/users/users.service.ts:22-30 | the login lookup finds a row exactly when some row has that e-mail address or username, and returns that row's login columns |
| Users.FindByEmailOrUsernameFindsOwner | src/users/users.service.ts:22-27 | under the unique constraints, a user is found by their own e-mail address and by their own username, provided no other row uses that address as its username or that username as its address |
| Users.CreateUser | src/users/users.service.ts:32-41 | a missing or empty picture becomes the avatar named after the display name, a given one is kept, and the insert's uniqueness rule applies |
| Users.UpdateVerificationInfo | src/users/users.service.ts:43-48 | the user's verification id and expiry are replaced; no other row or column changes |
| Users.MarkEmailAsVerified | src/users/users.service.ts:50-56 | the user is verified and the verification id and expiry are cleared; nothing else changes |
| Users.UpdateResetPasswordInfo | src/users/users.service.ts:62-67 | the user's reset id and expiry are replaced; nothing else changes |
| Users.UpdatePassword | src/users/users.service.ts:69-75 | the new hash is stored and the reset id and expiry are cleared; nothing else changes |
| Users.TokenWritesOnRow | src/users/users.service.ts:43-75 | after each token write, a lookup by the user's id finds the written row |
| Users.UpdateDisplayName | src/users/users.service.ts:77-82 | fails exactly when the name is empty or trims to fewer than two UTF-16 units; otherwise the untrimmed name is stored on the user's row alone |
| Users.DisplayNameWhitespace | src/users/users.service.ts:78 | an all-whitespace name is always refused; a name of two or more characters with no whitespace at either end is accepted |
| Users.UpdateProfile | src/users/users.service.ts:84-102 | NotFound for an unknown user; switching the dead switch on without a heir in the body or on the row is refused; otherwise the body is merged and the row read back without its password |
| Users.UpdateProfileEnablingHasHeir | src/users/users.service.ts:93-98 | switching the dead switch on with a heir, or with a stored heir and none in the body, leaves the switch on with a heir |
| Users.UpdateProfileCanDropHeir | src/users/users.service.ts:93-100 | as written, for any account with a stored heir, a patch that switches the dead switch on with a blank heir succeeds and leaves the switch on with no heir, while the corrected update refuses it |
| Users.UpdateProfileGuarded | src/users/users.service.ts:84-102 | with the guard applied to the row to be written, an update succeeds exactly when the result has a heir whenever its switch is on |
| Users.UpdateProfileGuardedKeepsHeir | src/users/users.service.ts:93-98 | the corrected update keeps every switched-on account supplied with a heir, and refuses everything the original refuses |
| UserDto.UpdateProfileRulesPerField | src/users/dto/updateUser.dto.ts:3-20 | the empty body is valid, the switch never affects validity, and each field is judged on its own |
| UserDto.UpdateProfileRulesRefuse | src/users/dto/updateUser.dto.ts:4-20 | a display name under two characters and a zero-hour duration are refused |
| SignUpRules.UsernameRuleIsAsciiWord | src/auth/dto/signup.dto.ts:9-14 | an accepted username is exactly 3 to 20 ASCII letters, digits and underscores, so it never holds an `@` |
| SignUpRules.NotEmptyIsImplied | src/auth/dto/signup.dto.ts:4-21 | the display-name rule is exactly a length of two or more, and the password rule a length of eight or more |
| Auth.IssueVerification | src/auth/auth.service.ts:126-142 | the issued token carries the user's id and the new uuid, and that uuid is stored with an expiry fifteen minutes ahead |
| Auth.SignUp | src/auth/auth.service.ts:19-38 | a taken e-mail address is reported before a taken username; success appends one unverified account with the default avatar and a verification uuid valid for fifteen minutes |
| Auth.ValidateUser | src/auth/auth.service.ts:40-51 | as written, a right password always meets "Email not verified", and no user is ever returned |
| Auth.ValidateUserCorrected | src/auth/auth.service.ts:40-51 | with the flag selected, a right password returns the user exactly when verified, and is refused when not |
| Auth.ValidateUserRefusesVerifiedUser | src/users/users.service.ts:28 | a verified user with the right password is refused as written and accepted by the corrected check |
| Auth.GoogleUsernameShape | src/auth/auth.service.ts:74-75 | the generated username has no `@` and, for clock readings of four or more digits, ends in `_` and the four low digits |
| Auth.GoogleLogin | src/auth/auth.service.ts:67-91 | no profile is refused; an existing account with the address is reused unchanged; otherwise a verified account with the generated username is created, which fails exactly when that username is taken |
| Auth.VerifyEmail | src/auth/auth.service.ts:93-124 | succeeds exactly when the token decodes and names an existing, unverified user whose stored uuid it carries and whose expiry has not passed; an expired token has its own message and every other failure reads "Invalid token" |
| Auth.CheckVerification | src/auth/auth.service.ts:102-112 | the four checks pass exactly when the user exists, is unverified, holds the token's uuid and is not past expiry |
| Auth.ResendVerificationEmail | src/auth/auth.service.ts:144-150 | an unknown address and a verified account get the same reply and change nothing; otherwise a new token replaces the old one |
| Auth.ForgotPassword | src/auth/auth.service.ts:152-173 | an unknown address changes nothing; otherwise a new reset uuid, valid for fifteen minutes, replaces any earlier one |
| Auth.CheckReset | src/auth/auth.service.ts:181-189 | the checks pass exactly when the user exists, holds the token's uuid and is not past expiry |
| Auth.ResetPassword | src/auth/auth.service.ts:175-199 | succeeds exactly when the token decodes and the checks pass; every failure reads "Invalid or expired reset token"; success stores the hash and clears the reset uuid |
| AuthTokens.SignUpThenVerify | src/auth/auth.service.ts:19-38 | the sign-up token verifies the new account exactly until fifteen minutes after sign-up, and the account is then verified |
| AuthTokens.VerifyEmailSingleUse | src/auth/auth.service.ts:104 | a verification token that has worked is refused the second time |
| AuthTokens.ResendSupersedes | src/auth/auth.service.ts:126-131 | after a resend, only the new uuid verifies, and only until fifteen minutes after the resend |
| AuthTokens.ForgotThenReset | src/auth/auth.service.ts:152-199 | a reset token resets the password exactly when it carries the latest uuid and its expiry has not passed |
| AuthTokens.ResetPasswordSingleUse | src/users/users.service.ts:69-75 | a reset token that has worked is refused the second time |
| AuthTokens.ForgotSupersedes | src/auth/auth.service.ts:152-160 | a newer reset request makes the older uuid useless |
| AuthTokens.ResetLeavesVerification | src/auth/auth.service.ts:175-199 | a successful password reset leaves the verified flag, the verification uuid and its expiry as they were |
| AuthTokens.VerifyLeavesPassword | src/auth/auth.service.ts:93-124 | a successful verification leaves the password hash, the reset uuid and its expiry as they were |

## Left out

- The alarm sweeper, pre-alarm mails, the promotion of scheduled timers and the expiry of active ones. No code for them exists in the services. So no modelled operation sets `alarmProcessed`, and only `update` reaches ALARM_SENT.
- Concurrency between requests. Each service call is one atomic step, so races between the uniqueness checks and the insert are not modelled.
- The mail service, the R2 object store and `updateProfilePicture`: all three are I/O.
- Controllers, module wiring and the Google guard: routing only. The destinations controller calls a `findActive` that the service does not define; the model covers the service's `getActive`.
- Coordinates (`lat`/`lng`), `updatedAt`, and the users' `createdAt`.
- The `group` relation that `getActive` joins.
- Destinations.Create: `timerHours` is a float column, and the model uses whole hours. Negative hours are modelled: nothing validates them, so startNow with `timerHours: -2` saves an ACTIVE row whose deadline is two hours before its start.
- `deadSwitchDurationHours` may be fractional in a body. The model uses integers.
- Explicit `null` values in update bodies, and undeclared fields that `Object.assign` and `repository.update` would copy. An absent field is `None`. An empty string stands for every falsy value.
- A `where` clause whose value is undefined. TypeORM drops it, so the lookup ignores that column. The model always has the id.
- Destinations.Create: a missing `timerHours` on startNow is modelled as a database error. In the code it is an invalid date.
- Destinations.Create: bodies carrying entity columns the create body does not declare. `create({ ...dto, userId, status })` copies every column the body has. So `preAlarmSent: true` or `alarmProcessed: true` would be saved with the flag set, and a body `startTime` would stay on a SAVED or SCHEDULED row. A body `id` would make `save` update that existing row, with the caller as owner, instead of inserting a new one. The model's body has only the declared fields, so its promises that only the new id is added, that the alarm flags start false and that an unstarted row has no start time hold for declared-shape bodies only.
- Bodies missing a field their class declares as required. The model's bodies always carry their required fields. Without a pipe, the code behaves differently. A group body without `contacts` throws a TypeError at `contacts.length` (a server error). A group or destination body without `name` fails the NOT NULL column on save. A destination create without `groupId` looks up `{ id: undefined, userId }`, which matches any of the caller's groups, so the row is saved with no group.
- Date arithmetic across daylight-saving changes. `setMinutes(+15)` is modelled as exactly 900000 ms, and the JWT's own fifteen-minute lifetime is part of the `JwtCheck` input.
- The `simple-array` encoding of `contacts`. Groups are modelled with their contact lists as given, so an address that contains a comma is not split on reload.
- Group and destination names are stored as given. The services check neither.
- A global validation pipe. The bootstrap file is not part of this model, so the model assumes that only the sign-up route validates its body. A global `ValidationPipe` with `whitelist` would strip the undeclared `action` and `timerHours` from a create body, so every create would save. It would also refuse a blank heir address before `updateProfile` runs.
- Ids that are not uuids. The primary keys are uuid columns, and PostgreSQL rejects a malformed uuid in a lookup, so the code answers with a server error. The model treats every id as a plain key. The members below state the answer for a well-formed id only.
- Destinations.Create: a `groupId` that is not a uuid gets BadRequest in the model; in the code the group lookup fails with a server error.
- Destinations.Stop: an id that is not a uuid gets NotFound in the model, a server error in the code.
- Destinations.Snooze: an id that is not a uuid gets BadRequest in the model, a server error in the code.
- Destinations.Update: an id that is not a uuid gets NotFound in the model, a server error in the code.
- Destinations.Delete: an id that is not a uuid gets NotFound in the model, a server error in the code. The removed row is returned with its id. TypeORM's `remove` returns the entity with its primary column unset.
- Groups.UpdateGroup: an id that is not a uuid gets NotFound in the model, a server error in the code.
- Groups.DeleteGroup: an id that is not a uuid gets NotFound in the model, a server error in the code.
- Destinations.GetActive: stated as a nondeterministic choice among the caller's ACTIVE rows, because the database picks which one it returns.

## Findings

| source | as written | input that shows it | evidently intended | confidence | as-written member | corrected member |
|---|---|---|---|---|---|---|
| src/users/users.service.ts:28, src/auth/auth.service.ts:45 | the login lookup selects seven columns without `isEmailVerified`, so `!user.isEmailVerified` is always true | a verified user logging in with the right password gets 401 "Email not verified" | the check reads the stored flag, so verified users can log in | high, not executed | Auth.ValidateUser | Auth.ValidateUserCorrected |
| src/users/users.service.ts:93-100 | the guard reads the heir from the body only when it is truthy, then writes the body's heir as it is | `{ deadSwitchEnabled: true, heirEmail: "" }`, or `heirEmail: null`, which `@IsOptional()` lets through any validation pipe, for a user with a stored heir | the dead switch is never on without a heir address | medium, not executed | Users.UpdateProfileCanDropHeir | Users.UpdateProfileGuarded |

=== FILE: auth.dfy ===
/** The auth service: sign-up, the password check behind login, Google
    sign-in, and the two token lifecycles, e-mail verification and password
    reset. Each token is a signed pair of the user's id (`sub`) and a fresh
    uuid (`jti`) that is also stored on the user's row with an expiry fifteen
    minutes ahead; a newer token replaces the stored uuid, and using a token
    clears it. Signing is modelled by the claims it signs, and verifying a
    token by its outcome (`JwtCheck`), an input here. bcrypt's hash is an
    input value and its compare a function parameter. */
module Auth {
  import opened Results
  import opened Text
  import opened UserEntity
  import opened Users
  import opened SignUpRules

  /** `expiresAt.setMinutes(expiresAt.getMinutes() + 15)`, in milliseconds. */
  const FifteenMinutes: int := 900000

  /** What `jwtService.verify` makes of a token: its claims, or the error it
      throws for an expired token, or any other error. */
  datatype JwtCheck = Decoded(sub: UserId, jti: Option<string>) | TokenExpired | TokenInvalid

  /** The claims of an issued verification or reset token. */
  datatype TokenClaims = TokenClaims(sub: UserId, jti: string)

  /** A reply message together with the table afterwards and the token mailed, if any. */
  datatype Reply = Reply(users: UserTable, message: string, token: Option<TokenClaims>)

  const EmailExists := "Email already exists"
  const UsernameExists := "Username already exists"
  const RegistrationDone := "Registration successful. Please check your email."
  const EmailNotVerified := "Email not verified"
  const NoGoogleUser := "No user from google"
  const AlreadyVerified := "Email already verified"
  const InvalidLink := "Invalid verification link"
  const LinkExpired := "Verification link expired"
  const LinkExpiredRequestNew := "Verification link expired. Please request a new one."
  const InvalidToken := "Invalid token"
  const EmailVerifiedDone := "Email verified successfully. You can now login."
  const ResendNothing := "If user exists and unverified, link sent."
  const ResendDone := "Verification link sent."
  const ForgotNothing := "If email exists, reset link sent."
  const ForgotDone := "Reset link sent."
  const InvalidOrUsedReset := "Invalid or used reset link"
  const ResetExpired := "Reset link expired"
  const InvalidResetToken := "Invalid or expired reset token"
  const ResetDone := "Password has been reset successfully."

  /** A stored expiry has passed: `expires && new Date() > expires`. */
  predicate Expired(expires: Option<Millis>, now: Millis) {
    expires.Some? && now > expires.value
  }

  // ---------------------------------------------------------------------------
  // signUp
  // ---------------------------------------------------------------------------

  /** `generateAndSendVerification`: a new verification uuid, stored with an
      expiry fifteen minutes ahead, and the token that carries it. */
  function IssueVerification(users: UserTable, userId: UserId, vid: string, now: Millis): (r: (UserTable, TokenClaims))
    ensures r.1 == TokenClaims(userId, vid)
    ensures |r.0| == |users|
    ensures Unique(users) ==> Unique(r.0)
    ensures forall i :: 0 <= i < |users| && users[i].id == userId ==>
      r.0[i].verificationId == Some(vid) && r.0[i].verificationExpires == Some(now + FifteenMinutes)
  {
    (UpdateVerificationInfo(users, userId, vid, now + FifteenMinutes), TokenClaims(userId, vid))
  }

  /** `signUp`: a taken e-mail address is reported before a taken username;
      otherwise an unverified account is created with the hashed password and
      a verification token is issued for it. */
  function SignUp(users: UserTable, dto: SignUpDto, hash: string, newId: UserId, vid: string, now: Millis): (r: Result<Reply>)
    requires FindById(users, newId).None?
    ensures FindByEmail(users, dto.email).Some? ==> r == Err(Conflict(EmailExists))
    ensures FindByEmail(users, dto.email).None? && FindByUsername(users, dto.username).Some?
      ==> r == Err(Conflict(UsernameExists))
    ensures r.Ok? <==> FindByEmail(users, dto.email).None? && FindByUsername(users, dto.username).None?
    ensures r.Ok? ==> r.value.message == RegistrationDone && r.value.token == Some(TokenClaims(newId, vid))
    ensures r.Ok? ==> |r.value.users| == |users| + 1 && r.value.users[..|users|] == users
    ensures r.Ok? ==>
      var u := r.value.users[|users|];
      && u.id == newId && u.email == dto.email && u.username == dto.username
      && u.displayName == dto.displayName && u.password == hash
      && u.picture == Some(DefaultAvatar(dto.displayName))
      && !u.isEmailVerified && !u.deadSwitchEnabled
      && u.verificationId == Some(vid) && u.verificationExpires == Some(now + FifteenMinutes)
    ensures r.Ok? && Unique(users) ==> Unique(r.value.users)
  {
    if FindByEmail(users, dto.email).Some? then Err(Conflict(EmailExists))
    else if FindByUsername(users, dto.username).Some? then Err(Conflict(UsernameExists))
    else
      var created := CreateUser(users, newId, NewUser(dto.email, dto.username, dto.displayName, hash, None, None, Some(false)));
      var (users', token) := IssueVerification(created.value.0, newId, vid, now);
      assert forall i :: 0 <= i < |users| ==> users[i].id != newId;
      assert forall i :: 0 <= i < |users| ==> users'[i] == users[i];
      Ok(Reply(users', RegistrationDone, Some(token)))
  }

  // ---------------------------------------------------------------------------
  // validateUser
  // ---------------------------------------------------------------------------

  /** The user object `validateUser` hands to login: the loaded entity
      without its password. */
  datatype Principal = Principal(
    id: UserId,
    email: string,
    username: string,
    displayName: string,
    picture: Option<string>,
    googleId: Option<string>,
    isEmailVerified: Option<bool>)

  /** The `isEmailVerified` of an entity loaded through the login column
      list: the column is not selected, so the property is undefined. */
  function LoadedVerifiedFlag(row: LoginRow): Option<bool> {
    None
  }

  /** A JavaScript truthiness test on an optional boolean. */
  predicate TruthyFlag(b: Option<bool>) {
    b == Some(true)
  }

  /** `validateUser` as written: no user, no stored password, or a wrong
      password gives no user; a right password meets the verification check,
      which reads a property the lookup never loaded. */
  function ValidateUser(users: UserTable, identifier: string, pass: string,
                        compare: (string, string) -> bool): (r: Result<Option<Principal>>)
    ensures var found := FindByEmailOrUsername(users, identifier);
      r.Err? <==> found.Some? && found.value.password != "" && compare(pass, found.value.password)
    ensures r.Err? ==> r.error == Unauthorized(EmailNotVerified)
    ensures r.Ok? ==> r.value.None?
  {
    match FindByEmailOrUsername(users, identifier)
    case None => Ok(None)
    case Some(row) =>
      if row.password != "" && compare(pass, row.password) then
        if !TruthyFlag(LoadedVerifiedFlag(row)) then Err(Unauthorized(EmailNotVerified))
        else Ok(Some(Principal(row.id, row.email, row.username, row.displayName, row.picture, row.googleId,
                               LoadedVerifiedFlag(row))))
      else Ok(None)
  }

  /** `validateUser` with `isEmailVerified` among the selected columns: the
      verification check then reads the stored flag. */
  function ValidateUserCorrected(users: UserTable, identifier: string, pass: string,
                                 compare: (string, string) -> bool): (r: Result<Option<Principal>>)
    ensures var found := FindByIdentifier(users, identifier);
      var matches := found.Some? && found.value.password != "" && compare(pass, found.value.password);
      && (r.Err? <==> matches && !found.value.isEmailVerified)
      && (r == Ok(None) <==> !matches)
      && (r.Ok? && r.value.Some? ==>
            && matches && found.value.isEmailVerified
            && r.value.value.id == found.value.id && r.value.value.email == found.value.email)
    ensures r.Err? ==> r.error == Unauthorized(EmailNotVerified)
  {
    match FindByIdentifier(users, identifier)
    case None => Ok(None)
    case Some(u) =>
      if u.password != "" && compare(pass, u.password) then
        if !u.isEmailVerified then Err(Unauthorized(EmailNotVerified))
        else Ok(Some(Principal(u.id, u.email, u.username, u.displayName, u.picture, u.googleId, Some(true))))
      else Ok(None)
  }

  /** The discrepancy: a verified user who gives the right password is
      refused by the code as written and accepted by the corrected check. */
  lemma ValidateUserRefusesVerifiedUser(users: UserTable, k: nat, compare: (string, string) -> bool, pass: string)
    requires Unique(users) && k < |users|
    requires forall i :: 0 <= i < |users| && i != k ==> users[i].username != users[k].email
    requires users[k].isEmailVerified && users[k].password != "" && compare(pass, users[k].password)
    ensures ValidateUser(users, users[k].email, pass, compare) == Err(Unauthorized(EmailNotVerified))
    ensures ValidateUserCorrected(users, users[k].email, pass, compare).Ok?
    ensures ValidateUserCorrected(users, users[k].email, pass, compare).value.Some?
  {
  }

  // ---------------------------------------------------------------------------
  // login, googleLogin
  // ---------------------------------------------------------------------------

  /** The access token's claims and the user summary `login` returns. */
  datatype AccessClaims = AccessClaims(email: string, sub: UserId, username: string)
  datatype LoginView = LoginView(id: UserId, email: string, username: string, displayName: string, picture: Option<string>)
  datatype LoginReply = LoginReply(claims: AccessClaims, user: LoginView)

  function Login(u: User): (r: LoginReply)
    ensures r.claims.sub == u.id && r.claims.email == u.email && r.claims.username == u.username
    ensures r.user.id == u.id && r.user.picture == u.picture && r.user.displayName == u.displayName
  {
    LoginReply(AccessClaims(u.email, u.id, u.username), LoginView(u.id, u.email, u.username, u.displayName, u.picture))
  }

  /** The profile the Google strategy attaches to the request. */
  datatype GoogleProfile = GoogleProfile(
    email: string,
    firstName: string,
    lastName: Option<string>,
    picture: Option<string>,
    accessToken: string)

  /** The username of a new Google account: the text before the first `@`,
      an underscore, and the last four digits of the clock in milliseconds. */
  function GoogleUsername(email: string, now: nat): string {
    BeforeFirst(email, '@') + "_" + Last(DecimalString(now), 4)
  }

  /** Any clock reading of four or more digits gives a username that ends in
      the reading's four low digits, and none holds an `@`. */
  lemma GoogleUsernameShape(email: string, now: nat)
    ensures '@' !in GoogleUsername(email, now)
    ensures now >= 1000 ==> GoogleUsername(email, now) == BeforeFirst(email, '@') + "_" + LowDigits(now, 4)
    ensures now >= 1000 ==> |GoogleUsername(email, now)| == |BeforeFirst(email, '@')| + 5
  {
    var local := BeforeFirst(email, '@');
    var ds := DecimalString(now);
    var digits := Last(ds, 4);
    assert '@' !in digits by {
      forall i | 0 <= i < |digits| ensures digits[i] != '@' {
        assert digits[i] == ds[|ds| - |digits| + i];
      }
    }
    assert GoogleUsername(email, now) == local + "_" + digits;
    if now >= 1000 {
      assert Pow10(3) == 1000 by {
        assert Pow10(1) == 10;
        assert Pow10(2) == 100;
      }
      DecimalStringEndsWithLowDigits(now, 4);
    }
  }

  /** `googleLogin`: a sign-in without a profile is refused; an account with
      the profile's address is reused as it is; otherwise a verified account is
      created under the generated username, which fails when that username is
      taken. */
  function GoogleLogin(users: UserTable, profile: Option<GoogleProfile>, newId: UserId, hash: string, now: nat)
    : (r: Result<(UserTable, LoginReply)>)
    requires FindById(users, newId).None?
    ensures profile.None? ==> r == Err(BadRequest(NoGoogleUser))
    ensures profile.Some? && FindByEmail(users, profile.value.email).Some?
      ==> r == Ok((users, Login(FindByEmail(users, profile.value.email).value)))
    ensures profile.Some? && FindByEmail(users, profile.value.email).None? ==>
      (r.Err? <==> FindByUsername(users, GoogleUsername(profile.value.email, now)).Some?)
    ensures r.Err? && profile.Some? ==> r.error == ServerError(UniqueViolation)
    ensures r.Ok? && profile.Some? && FindByEmail(users, profile.value.email).None? ==>
      |r.value.0| == |users| + 1
    ensures r.Ok? && profile.Some? && FindByEmail(users, profile.value.email).None? ==>
      var (p, u) := (profile.value, r.value.0[|users|]);
      && r.value.0 == users + [u]
      && u.id == newId && u.email == p.email && u.username == GoogleUsername(p.email, now)
      && u.displayName == p.firstName + " " + (if p.lastName.Some? then p.lastName.value else "")
      && u.isEmailVerified && u.googleId == Some(p.accessToken) && u.password == hash
      && r.value.1 == Login(u)
    ensures r.Ok? && Unique(users) ==> Unique(r.value.0)
  {
    if profile.None? then Err(BadRequest(NoGoogleUser))
    else
      var p := profile.value;
      match FindByEmail(users, p.email)
      case Some(u) => Ok((users, Login(u)))
      case None =>
        var data := NewUser(p.email, GoogleUsername(p.email, now),
                            p.firstName + " " + (if p.lastName.Some? then p.lastName.value else ""),
                            hash, p.picture, Some(p.accessToken), Some(true));
        var created :- CreateUser(users, newId, data);
        Ok((created.0, Login(created.1)))
  }

  // ---------------------------------------------------------------------------
  // verifyEmail, resendVerificationEmail
  // ---------------------------------------------------------------------------

  /** The checks inside `verifyEmail`'s `try`, each with the message it throws. */
  function CheckVerification(users: UserTable, sub: UserId, jti: Option<string>, now: Millis): (r: Result<User>)
    ensures r.Ok? <==>
      && FindById(users, sub).Some?
      && !FindById(users, sub).value.isEmailVerified
      && jti.Some? && FindById(users, sub).value.verificationId == jti
      && !Expired(FindById(users, sub).value.verificationExpires, now)
    ensures r.Ok? ==> r.value == FindById(users, sub).value
    ensures r.Err? ==> r.error.BadRequest?
  {
    match FindById(users, sub)
    case None => Err(BadRequest(UserNotFound))
    case Some(u) =>
      if u.isEmailVerified then Err(BadRequest(AlreadyVerified))
      else if !(jti.Some? && u.verificationId == jti) then Err(BadRequest(InvalidLink))
      else if Expired(u.verificationExpires, now) then Err(BadRequest(LinkExpired))
      else Ok(u)
  }

  /** `verifyEmail`: an expired token has its own message and every other
      failure, the checks' own included, is reported as an invalid token. On
      success the address is marked verified and the uuid is cleared. */
  function VerifyEmail(users: UserTable, check: JwtCheck, now: Millis): (r: Result<(UserTable, string)>)
    ensures r.Ok? <==> check.Decoded? && CheckVerification(users, check.sub, check.jti, now).Ok?
    ensures r.Err? ==> r.error == (if check.TokenExpired? then BadRequest(LinkExpiredRequestNew) else BadRequest(InvalidToken))
    ensures r.Ok? ==> r.value == (MarkEmailAsVerified(users, check.sub), EmailVerifiedDone)
  {
    match check
    case TokenExpired => Err(BadRequest(LinkExpiredRequestNew))
    case TokenInvalid => Err(BadRequest(InvalidToken))
    case Decoded(sub, jti) =>
      match CheckVerification(users, sub, jti, now)
      case Err(_) => Err(BadRequest(InvalidToken))
      case Ok(_) => Ok((MarkEmailAsVerified(users, sub), EmailVerifiedDone))
  }

  /** `resendVerificationEmail`: an unknown address and a verified account
      get the same reply and change nothing; otherwise a new verification
      token replaces the old one. */
  function ResendVerificationEmail(users: UserTable, email: string, vid: string, now: Millis): (r: Reply)
    ensures FindByEmail(users, email).None? || FindByEmail(users, email).value.isEmailVerified
      <==> r == Reply(users, ResendNothing, None)
    ensures r.message == ResendDone <==> r.token.Some?
    ensures r.token.Some? ==>
      var u := FindByEmail(users, email).value;
      && r.token.value == TokenClaims(u.id, vid)
      && r.users == IssueVerification(users, u.id, vid, now).0
  {
    match FindByEmail(users, email)
    case None => Reply(users, ResendNothing, None)
    case Some(u) =>
      if u.isEmailVerified then Reply(users, ResendNothing, None)
      else
        var (users', token) := IssueVerification(users, u.id, vid, now);
        Reply(users', ResendDone, Some(token))
  }

  // ---------------------------------------------------------------------------
  // forgotPassword, resetPassword
  // ---------------------------------------------------------------------------

  /** `forgotPassword`: an unknown address changes nothing; otherwise a new
      reset uuid, valid for fifteen minutes, replaces any earlier one. */
  function ForgotPassword(users: UserTable, email: string, rid: string, now: Millis): (r: Reply)
    ensures FindByEmail(users, email).None? <==> r == Reply(users, ForgotNothing, None)
    ensures r.message == ForgotDone <==> r.token.Some?
    ensures r.token.Some? ==>
      var u := FindByEmail(users, email).value;
      && r.token.value == TokenClaims(u.id, rid)
      && r.users == UpdateResetPasswordInfo(users, u.id, rid, now + FifteenMinutes)
  {
    match FindByEmail(users, email)
    case None => Reply(users, ForgotNothing, None)
    case Some(u) =>
      Reply(UpdateResetPasswordInfo(users, u.id, rid, now + FifteenMinutes), ForgotDone, Some(TokenClaims(u.id, rid)))
  }

  /** The checks inside `resetPassword`'s `try`, each with the message it throws. */
  function CheckReset(users: UserTable, sub: UserId, jti: Option<string>, now: Millis): (r: Result<User>)
    ensures r.Ok? <==>
      && FindById(users, sub).Some?
      && jti.Some? && FindById(users, sub).value.resetPasswordToken == jti
      && !Expired(FindById(users, sub).value.resetPasswordExpires, now)
    ensures r.Ok? ==> r.value == FindById(users, sub).value
  {
    match FindById(users, sub)
    case None => Err(BadRequest(UserNotFound))
    case Some(u) =>
      if !(jti.Some? && u.resetPasswordToken == jti) then Err(BadRequest(InvalidOrUsedReset))
      else if Expired(u.resetPasswordExpires, now) then Err(BadRequest(ResetExpired))
      else Ok(u)
  }

  /** `resetPassword`: every failure, an expired token included, is reported
      with one message. On success the new hash is stored and the reset uuid
      is cleared. */
  function ResetPassword(users: UserTable, check: JwtCheck, hash: string, now: Millis): (r: Result<(UserTable, string)>)
    ensures r.Ok? <==> check.Decoded? && CheckReset(users, check.sub, check.jti, now).Ok?
    ensures r.Err? ==> r.error == BadRequest(InvalidResetToken)
    ensures r.Ok? ==> r.value == (UpdatePassword(users, check.sub, hash), ResetDone)
  {
    match check
    case Decoded(sub, jti) =>
      (match CheckReset(users, sub, jti, now)
       case Err(_) => Err(BadRequest(InvalidResetToken))
       case Ok(u) => Ok((UpdatePassword(users, u.id, hash), ResetDone)))
    case _ => Err(BadRequest(InvalidResetToken))
  }
}

=== FILE: auth_tokens.dfy ===
/** The two token lifecycles end to end: a token issued at `now` is
    accepted until fifteen minutes later and refused after that, a newer
    token makes every older one useless, and a token works once. */
module AuthTokens {
  import opened Results
  import opened UserEntity
  import opened Users
  import opened SignUpRules
  import opened Auth

  /** The new account's verification token verifies its address exactly
      until its stored expiry, and the account is then verified. */
  lemma SignUpThenVerify(users: UserTable, dto: SignUpDto, hash: string, newId: UserId, vid: string,
                         now: Millis, later: Millis)
    requires Unique(users) && FindById(users, newId).None?
    requires SignUp(users, dto, hash, newId, vid, now).Ok?
    ensures var s := SignUp(users, dto, hash, newId, vid, now).value;
      var v := VerifyEmail(s.users, Decoded(newId, Some(vid)), later);
      && (v.Ok? <==> later <= now + FifteenMinutes)
      && (v.Err? ==> v.error == BadRequest(InvalidToken))
      && (v.Ok? ==> FindById(v.value.0, newId).value.isEmailVerified)
  {
  }

  /** A verification token works once: after it has verified the address,
      the same token is refused. */
  lemma VerifyEmailSingleUse(users: UserTable, check: JwtCheck, now: Millis, later: Millis)
    requires Unique(users)
    requires VerifyEmail(users, check, now).Ok?
    ensures VerifyEmail(VerifyEmail(users, check, now).value.0, check, later) == Err(BadRequest(InvalidToken))
  {
  }

  /** A resent verification token supersedes every earlier one: only the new
      uuid is accepted, and only until fifteen minutes after the resend. */
  lemma ResendSupersedes(users: UserTable, email: string, vid: string, now: Millis,
                         jti: Option<string>, later: Millis)
    requires Unique(users)
    requires ResendVerificationEmail(users, email, vid, now).token.Some?
    ensures var r := ResendVerificationEmail(users, email, vid, now);
      var v := VerifyEmail(r.users, Decoded(r.token.value.sub, jti), later);
      v.Ok? <==> jti == Some(vid) && later <= now + FifteenMinutes
  {
    var k := RowOfEmail(users, email);
    var u := users[k];
    TokenWritesOnRow(users, k, vid, vid, now + FifteenMinutes, "");
  }

  /** A reset token from `forgotPassword` resets the password exactly until
      its stored expiry; a token carrying any other uuid is refused. */
  lemma ForgotThenReset(users: UserTable, email: string, rid: string, now: Millis,
                        jti: Option<string>, hash: string, later: Millis)
    requires Unique(users)
    requires ForgotPassword(users, email, rid, now).token.Some?
    ensures var f := ForgotPassword(users, email, rid, now);
      var sub := f.token.value.sub;
      var r := ResetPassword(f.users, Decoded(sub, jti), hash, later);
      && (r.Ok? <==> jti == Some(rid) && later <= now + FifteenMinutes)
      && (r.Ok? ==> FindById(r.value.0, sub).value.password == hash)
  {
    var k := RowOfEmail(users, email);
    var u := users[k];
    var f := ForgotPassword(users, email, rid, now);
    var after := f.users;
    assert after == UpdateResetPasswordInfo(users, u.id, rid, now + FifteenMinutes);
    TokenWritesOnRow(users, k, rid, rid, now + FifteenMinutes, hash);
    var stored := u.(resetPasswordToken := Some(rid), resetPasswordExpires := Some(now + FifteenMinutes));
    assert FindById(after, u.id) == Some(stored);
    assert CheckReset(after, u.id, jti, later).Ok? <==> jti == Some(rid) && later <= now + FifteenMinutes;
    var r := ResetPassword(after, Decoded(u.id, jti), hash, later);
    if r.Ok? {
      assert after[k] == stored;
      TokenWritesOnRow(after, k, rid, rid, now, hash);
      assert r.value.0 == UpdatePassword(after, u.id, hash);
    }
  }

  /** A reset token works once: after it has reset the password, the same
      token is refused. */
  lemma ResetPasswordSingleUse(users: UserTable, check: JwtCheck, hash: string, hash2: string,
                               now: Millis, later: Millis)
    requires Unique(users)
    requires ResetPassword(users, check, hash, now).Ok?
    ensures ResetPassword(ResetPassword(users, check, hash, now).value.0, check, hash2, later)
         == Err(BadRequest(InvalidResetToken))
  {
  }

  /** A newer reset request supersedes an older one: the older uuid is
      refused once the newer one is stored. */
  lemma ForgotSupersedes(users: UserTable, email: string, rid1: string, rid2: string,
                         now1: Millis, now2: Millis, hash: string, later: Millis)
    requires Unique(users) && rid1 != rid2
    requires ForgotPassword(users, email, rid1, now1).token.Some?
    ensures var f1 := ForgotPassword(users, email, rid1, now1);
      var f2 := ForgotPassword(f1.users, email, rid2, now2);
      && f2.token.Some?
      && ResetPassword(f2.users, Decoded(f1.token.value.sub, Some(rid1)), hash, later)
         == Err(BadRequest(InvalidResetToken))
  {
    var k := RowOfEmail(users, email);
    var u := users[k];
    TokenWritesOnRow(users, k, rid1, rid1, now1 + FifteenMinutes, hash);
    var f1 := ForgotPassword(users, email, rid1, now1);
    FindUniqueRow(f1.users, k);
    TokenWritesOnRow(f1.users, k, rid2, rid2, now2 + FifteenMinutes, hash);
  }

  /** Resetting the password leaves the verification state alone. */
  lemma ResetLeavesVerification(users: UserTable, check: JwtCheck, hash: string, now: Millis)
    requires Unique(users)
    requires ResetPassword(users, check, hash, now).Ok?
    ensures var u := FindById(users, check.sub).value;
      var v := FindById(ResetPassword(users, check, hash, now).value.0, check.sub).value;
      && v.isEmailVerified == u.isEmailVerified
      && v.verificationId == u.verificationId
      && v.verificationExpires == u.verificationExpires
  {
    var k := RowOfId(users, check.sub);
    var u := users[k];
    assert ResetPassword(users, check, hash, now).value.0 == UpdatePassword(users, u.id, hash);
    TokenWritesOnRow(users, k, "", "", now, hash);
    assert FindById(UpdatePassword(users, u.id, hash), u.id)
        == Some(u.(password := hash, resetPasswordToken := None, resetPasswordExpires := None));
  }

  /** Verifying the address leaves the password and the reset state alone. */
  lemma VerifyLeavesPassword(users: UserTable, check: JwtCheck, now: Millis)
    requires Unique(users)
    requires VerifyEmail(users, check, now).Ok?
    ensures var u := FindById(users, check.sub).value;
      var v := FindById(VerifyEmail(users, check, now).value.0, check.sub).value;
      && v.password == u.password
      && v.resetPasswordToken == u.resetPasswordToken
      && v.resetPasswordExpires == u.resetPasswordExpires
  {
    var k := RowOfId(users, check.sub);
    var u := users[k];
    assert VerifyEmail(users, check, now).value.0 == MarkEmailAsVerified(users, u.id);
    TokenWritesOnRow(users, k, "", "", now, "");
    assert FindById(MarkEmailAsVerified(users, u.id), u.id)
        == Some(u.(isEmailVerified := true, verificationId := None, verificationExpires := None));
  }
}

=== FILE: destination_dto.dfy ===
/** The request bodies of the destinations API and the class-validator rules
    declared on `CreateDestinationDto`. Dates arrive already read as instants;
    `lat`/`lng` are not modelled. */
module DestinationDto {
  import opened Results
  import opened UserEntity
  import opened GroupEntity
  import opened DestinationEntity

  /** The body of a create request. `action` and `timerHours` are read by the
      service but are not declared on the DTO class, so no rule checks them. */
  datatype CreateDestinationDto = CreateDestinationDto(
    name: string,
    address: string,
    groupId: GroupId,
    notes: Option<string>,
    scheduledStartTime: Option<Millis>,
    status: string,
    deadline: Option<Millis>,
    action: Option<string>,
    timerHours: Option<int>)

  /** The body of an update request, `Partial<CreateDestinationDto>`: every
      declared field may be left out. */
  datatype UpdateDestinationDto = UpdateDestinationDto(
    name: Option<string>,
    address: Option<string>,
    groupId: Option<GroupId>,
    notes: Option<string>,
    scheduledStartTime: Option<Millis>,
    status: Option<string>,
    deadline: Option<Millis>)

  /** The declared rules: `name` and `address` non-empty, `groupId` a uuid
      (`isUuid` stands for class-validator's `IsUUID`), `status` one of the
      enum's values; the optional dates are unconstrained once read. */
  predicate IsValidCreateDto(dto: CreateDestinationDto, isUuid: string -> bool) {
    && dto.name != ""
    && dto.address != ""
    && isUuid(dto.groupId)
    && ParseStatus(dto.status).Some?
  }

  /** The rules accept a body exactly when its status is one of the five
      stored values and its other declared fields pass; `action` and
      `timerHours` play no part. */
  lemma ValidCreateDtoIgnoresActionAndHours(
    dto: CreateDestinationDto, isUuid: string -> bool, action: Option<string>, hours: Option<nat>)
    ensures IsValidCreateDto(dto.(action := action, timerHours := hours), isUuid)
      <==> IsValidCreateDto(dto, isUuid)
    ensures IsValidCreateDto(dto, isUuid) <==>
      dto.name != "" && dto.address != "" && isUuid(dto.groupId)
      && exists s: DestinationStatus :: StatusValue(s) == dto.status
  {
    if ParseStatus(dto.status).Some? {
      ParseStatusInvertsStatusValue(dto.status, ParseStatus(dto.status).value);
    }
    if exists s: DestinationStatus :: StatusValue(s) == dto.status {
      var s: DestinationStatus :| StatusValue(s) == dto.status;
      ParseStatusInvertsStatusValue(dto.status, s);
    }
  }
}

=== FILE: destination_entity.dfy ===
/** The `destinations` table: one check-in timer ("destination") of a user,
    with its status, its optional schedule, start time and deadline, and the
    two alarm flags. Deleting the owner deletes the user's destinations;
    deleting the referenced group only clears `groupId`. */
module DestinationEntity {
  import opened Results
  import opened UserEntity
  import opened GroupEntity

  type DestinationId = string

  /** The five values of the `status` enum column. */
  datatype DestinationStatus = Saved | Scheduled | Active | Completed | AlarmSent

  /** The string stored for each status. */
  function StatusValue(s: DestinationStatus): string {
    match s
    case Saved => "saved"
    case Scheduled => "scheduled"
    case Active => "active"
    case Completed => "completed"
    case AlarmSent => "alarm_sent"
  }

  /** Reads a stored or submitted string as a status; `None` for any string
      outside the enum. */
  function ParseStatus(v: string): Option<DestinationStatus> {
    if v == "saved" then Some(Saved)
    else if v == "scheduled" then Some(Scheduled)
    else if v == "active" then Some(Active)
    else if v == "completed" then Some(Completed)
    else if v == "alarm_sent" then Some(AlarmSent)
    else None
  }

  /** A string is a status exactly when it is one of the five stored values,
      and each status has its own value. */
  lemma ParseStatusInvertsStatusValue(v: string, s: DestinationStatus)
    ensures ParseStatus(v) == Some(s) <==> StatusValue(s) == v
  {
  }

  /** One row of `destinations`. The coordinates `lat`/`lng` and `updatedAt`
      are not modelled; `timerHours` is a whole number of hours,
      and nothing keeps it from being negative. */
  datatype Destination = Destination(
    id: DestinationId,
    name: string,
    address: Option<string>,
    notes: Option<string>,
    userId: UserId,
    groupId: Option<GroupId>,
    timerHours: Option<int>,
    scheduledStartTime: Option<Millis>,
    startTime: Option<Millis>,
    deadline: Option<Millis>,
    status: DestinationStatus,
    preAlarmSent: bool,
    alarmProcessed: bool,
    createdAt: Millis)

  /** The table, keyed by id. */
  type DestinationStore = map<DestinationId, Destination>

  /** Every row is stored under its own id. */
  predicate WellKeyedDestinations(store: DestinationStore) {
    forall id :: id in store ==> store[id].id == id
  }

  /** `findOne({ where: { id, userId } })` finds a row. */
  predicate OwnsDestination(store: DestinationStore, userId: UserId, id: DestinationId) {
    id in store && store[id].userId == userId
  }

  /** The column defaults: a row created without a status is SAVED and has
      neither alarm flag set; the three instants are nullable. */
  function DefaultRow(id: DestinationId, name: string, userId: UserId, createdAt: Millis): (d: Destination)
    ensures d.status == Saved && !d.preAlarmSent && !d.alarmProcessed
    ensures d.scheduledStartTime.None? && d.startTime.None? && d.deadline.None?
    ensures d.id == id && d.userId == userId && d.createdAt == createdAt
  {
    Destination(id, name, None, None, userId, None, None, None, None, None, Saved, false, false, createdAt)
  }

  /** The `onDelete: 'CASCADE'` rule on the owner: deleting a user deletes
      exactly that user's destinations and leaves every other row as it was. */
  function DeleteOwnersDestinations(store: DestinationStore, userId: UserId): (r: DestinationStore)
    ensures forall id :: id in r ==> id in store && r[id] == store[id]
    ensures forall id :: id in store ==> (id in r <==> store[id].userId != userId)
  {
    map id | id in store && store[id].userId != userId :: store[id]
  }

  /** The `onDelete: 'SET NULL'` rule on the group: deleting a group keeps
      every destination, clears `groupId` in those that referenced it, and
      changes nothing else. */
  function ClearDeletedGroup(store: DestinationStore, groupId: GroupId): (r: DestinationStore)
    ensures r.Keys == store.Keys
    ensures forall id :: id in r ==> r[id].groupId != Some(groupId)
    ensures forall id :: id in r ==> r[id].(groupId := store[id].groupId) == store[id]
    ensures forall id :: id in r && store[id].groupId != Some(groupId) ==> r[id] == store[id]
  {
    map id | id in store ::
      if store[id].groupId == Some(groupId) then store[id].(groupId := None) else store[id]
  }
}

=== FILE: destinations.dfy ===
/** The destinations service: the owner's operations on check-in timers. Every
    operation reads the row by `(id, userId)`, checks the status, and writes
    back one row; each is one atomic step on the store, and `now` stands for
    the clock. */
module Destinations {
  import opened Results
  import opened UserEntity
  import opened GroupEntity
  import opened DestinationEntity
  import opened DestinationDto

  /** One hour in milliseconds, `60 * 60 * 1000`: the unit of `timerHours`
      and the length of one snooze. */
  const HourMillis: int := 3600000

  const InvalidGroup := "Invalid emergency group."
  const ScheduleRequired := "Scheduled start time is required."
  const DestinationNotFound := "Destination not found."
  const OnlyActiveCanStop := "Only active destinations can be stopped."
  const NoActiveToSnooze := "No active destination to snooze."
  const CannotEdit := "Cannot edit an active or finished destination."
  const OnlySavedCanDelete := "Only saved destinations can be deleted."

  /** The database's answer to a deadline computed from an absent
      `timerHours` (`undefined * 3600000` is `NaN`, an invalid date). */
  const InvalidTimestamp := "invalid input syntax for type timestamp"
  /** The `TypeError` of `dest.deadline!.getTime()` on a null deadline. */
  const NullDeadline := "Cannot read properties of null (reading 'getTime')"
  /** The database's answer to a status outside the enum. */
  const InvalidStatus := "invalid input value for enum"
  /** The database's answer to a `groupId` that names no group. */
  const DanglingGroup := "violates foreign key constraint"

  // ---------------------------------------------------------------------------
  // create
  // ---------------------------------------------------------------------------

  /** `destRepo.create({ ...dto, userId, status: SAVED })`: the body's columns
      over the defaults, owned by the caller, SAVED whatever the body says. */
  function Spread(dto: CreateDestinationDto, userId: UserId, id: DestinationId, now: Millis): Destination {
    DefaultRow(id, dto.name, userId, now).(
      address := Some(dto.address),
      notes := dto.notes,
      groupId := Some(dto.groupId),
      timerHours := dto.timerHours,
      scheduledStartTime := dto.scheduledStartTime,
      deadline := dto.deadline)
  }

  /** `create`: the group must be one of the caller's; the action then decides
      the status. `startNow` starts the timer at `now` with a deadline
      `timerHours` hours later, `startLater` needs a start time, and any other
      action only saves. The body's `status` is never used, while its
      `deadline` and `scheduledStartTime` are copied whatever the action. */
  function Create(store: DestinationStore, groups: GroupStore, userId: UserId,
                  dto: CreateDestinationDto, newId: DestinationId, now: Millis): (r: Result<(DestinationStore, Destination)>)
    requires newId !in store
    ensures !OwnsGroup(groups, userId, dto.groupId) ==> r == Err(BadRequest(InvalidGroup))
    ensures r.Err? <==>
      || !OwnsGroup(groups, userId, dto.groupId)
      || (dto.action == Some("startNow") && dto.timerHours.None?)
      || (dto.action == Some("startLater") && dto.scheduledStartTime.None?)
    ensures OwnsGroup(groups, userId, dto.groupId) && dto.action == Some("startNow") && dto.timerHours.None?
      ==> r == Err(ServerError(InvalidTimestamp))
    ensures OwnsGroup(groups, userId, dto.groupId) && dto.action == Some("startLater") && dto.scheduledStartTime.None?
      ==> r == Err(BadRequest(ScheduleRequired))
    ensures r.Ok? ==> r.value.0 == store[newId := r.value.1]
    ensures r.Ok? ==>
      var d := r.value.1;
      && d.id == newId && d.userId == userId && d.createdAt == now
      && d.name == dto.name && d.groupId == Some(dto.groupId)
      && !d.preAlarmSent && !d.alarmProcessed
    ensures r.Ok? ==> (r.value.1.status == Active <==> dto.action == Some("startNow"))
    ensures r.Ok? ==> (r.value.1.status == Scheduled <==> dto.action == Some("startLater"))
    ensures r.Ok? ==> r.value.1.status in {Saved, Scheduled, Active}
    ensures r.Ok? && dto.action == Some("startNow") ==>
      && r.value.1.startTime == Some(now)
      && r.value.1.deadline == Some(now + dto.timerHours.value * HourMillis)
    ensures r.Ok? && dto.action != Some("startNow") ==>
      && r.value.1.startTime.None?
      && r.value.1.deadline == dto.deadline
      && r.value.1.scheduledStartTime == dto.scheduledStartTime
    ensures r.Ok? && WellKeyedDestinations(store) ==> WellKeyedDestinations(r.value.0)
  {
    if !OwnsGroup(groups, userId, dto.groupId) then
      Err(BadRequest(InvalidGroup))
    else
      var d := Spread(dto, userId, newId, now);
      if dto.action == Some("startNow") then
        if dto.timerHours.None? then
          Err(ServerError(InvalidTimestamp))
        else
          var a := d.(status := Active, startTime := Some(now),
                      deadline := Some(now + dto.timerHours.value * HourMillis));
          Ok((store[newId := a], a))
      else if dto.action == Some("startLater") then
        if dto.scheduledStartTime.None? then
          Err(BadRequest(ScheduleRequired))
        else
          var s := d.(status := Scheduled, scheduledStartTime := dto.scheduledStartTime);
          Ok((store[newId := s], s))
      else
        Ok((store[newId := d], d))
  }

  // ---------------------------------------------------------------------------
  // stop, snooze
  // ---------------------------------------------------------------------------

  /** `stop`: only the owner's ACTIVE destination can be stopped, and stopping
      changes its status to COMPLETED and nothing else. */
  function Stop(store: DestinationStore, userId: UserId, id: DestinationId): (r: Result<(DestinationStore, Destination)>)
    ensures !OwnsDestination(store, userId, id) ==> r == Err(NotFound(DestinationNotFound))
    ensures OwnsDestination(store, userId, id) && store[id].status != Active
      ==> r == Err(BadRequest(OnlyActiveCanStop))
    ensures r.Ok? <==> OwnsDestination(store, userId, id) && store[id].status == Active
    ensures r.Ok? ==> r.value.0 == store[id := r.value.1]
    ensures r.Ok? ==> r.value.1.status == Completed && r.value.1.(status := Active) == store[id]
    ensures r.Ok? && WellKeyedDestinations(store) ==> WellKeyedDestinations(r.value.0)
  {
    if !OwnsDestination(store, userId, id) then
      Err(NotFound(DestinationNotFound))
    else if store[id].status != Active then
      Err(BadRequest(OnlyActiveCanStop))
    else
      var d := store[id].(status := Completed);
      Ok((store[id := d], d))
  }

  /** `snooze`: a missing destination and a non-ACTIVE one are refused alike.
      On an ACTIVE one the deadline moves one hour later and the pre-alarm
      flag is cleared; nothing else changes. An ACTIVE row without a deadline
      makes `deadline!.getTime()` throw. */
  function Snooze(store: DestinationStore, userId: UserId, id: DestinationId): (r: Result<(DestinationStore, Destination)>)
    ensures !(OwnsDestination(store, userId, id) && store[id].status == Active)
      ==> r == Err(BadRequest(NoActiveToSnooze))
    ensures OwnsDestination(store, userId, id) && store[id].status == Active && store[id].deadline.None?
      ==> r == Err(ServerError(NullDeadline))
    ensures r.Ok? <==>
      OwnsDestination(store, userId, id) && store[id].status == Active && store[id].deadline.Some?
    ensures r.Ok? ==> r.value.0 == store[id := r.value.1]
    ensures r.Ok? ==>
      var (before, after) := (store[id], r.value.1);
      && after.deadline == Some(before.deadline.value + HourMillis)
      && !after.preAlarmSent
      && after.status == Active
      && after.(deadline := before.deadline, preAlarmSent := before.preAlarmSent) == before
    ensures r.Ok? && WellKeyedDestinations(store) ==> WellKeyedDestinations(r.value.0)
  {
    if !OwnsDestination(store, userId, id) || store[id].status != Active then
      Err(BadRequest(NoActiveToSnooze))
    else if store[id].deadline.None? then
      Err(ServerError(NullDeadline))
    else
      var d := store[id].(deadline := Some(store[id].deadline.value + HourMillis), preAlarmSent := false);
      Ok((store[id := d], d))
  }

  // ---------------------------------------------------------------------------
  // update
  // ---------------------------------------------------------------------------

  /** The status an update body carries is one the column accepts. */
  predicate StatusAccepted(dto: UpdateDestinationDto) {
    dto.status.None? || ParseStatus(dto.status.value).Some?
  }

  /** The status a row has after the merge: the body's, read as a status,
      or the stored one when the body has none. */
  function StatusAfter(dto: UpdateDestinationDto, current: DestinationStatus): (s: DestinationStatus)
    requires StatusAccepted(dto)
    ensures dto.status.Some? ==> ParseStatus(dto.status.value) == Some(s)
    ensures dto.status.None? ==> s == current
  {
    if dto.status.Some? then ParseStatus(dto.status.value).value else current
  }

  /** The first half of the merge: the body's name, address, notes and group
      over the row's. */
  function AssignLabels(d: Destination, dto: UpdateDestinationDto): (e: Destination)
    ensures dto.name.Some? ==> e.name == dto.name.value
    ensures dto.name.None? ==> e.name == d.name
    ensures dto.address.Some? ==> e.address == dto.address
    ensures dto.address.None? ==> e.address == d.address
    ensures dto.groupId.Some? ==> e.groupId == dto.groupId
    ensures dto.groupId.None? ==> e.groupId == d.groupId
    ensures dto.notes.Some? ==> e.notes == dto.notes
    ensures dto.notes.None? ==> e.notes == d.notes
    ensures e.(name := d.name, address := d.address, groupId := d.groupId, notes := d.notes) == d
  {
    d.(name := Overwrite(dto.name, d.name),
       address := if dto.address.Some? then dto.address else d.address,
       groupId := if dto.groupId.Some? then dto.groupId else d.groupId,
       notes := if dto.notes.Some? then dto.notes else d.notes)
  }

  /** The second half of the merge: the body's schedule, status and deadline
      over the row's. */
  function AssignSchedule(d: Destination, dto: UpdateDestinationDto): (e: Destination)
    requires StatusAccepted(dto)
    ensures dto.scheduledStartTime.Some? ==> e.scheduledStartTime == dto.scheduledStartTime
    ensures dto.scheduledStartTime.None? ==> e.scheduledStartTime == d.scheduledStartTime
    ensures dto.status.Some? ==> ParseStatus(dto.status.value) == Some(e.status)
    ensures dto.status.None? ==> e.status == d.status
    ensures dto.deadline.Some? ==> e.deadline == dto.deadline
    ensures dto.deadline.None? ==> e.deadline == d.deadline
    ensures e.(scheduledStartTime := d.scheduledStartTime, status := d.status, deadline := d.deadline) == d
  {
    d.(scheduledStartTime := if dto.scheduledStartTime.Some? then dto.scheduledStartTime else d.scheduledStartTime,
       status := StatusAfter(dto, d.status),
       deadline := if dto.deadline.Some? then dto.deadline else d.deadline)
  }

  /** `Object.assign(dest, dto)`: every field the body carries replaces the
      row's, the status included, and every field it leaves out keeps the
      row's value; the columns the body cannot name are kept. */
  function Assign(d: Destination, dto: UpdateDestinationDto): (e: Destination)
    requires StatusAccepted(dto)
    ensures dto.name.Some? ==> e.name == dto.name.value
    ensures dto.name.None? ==> e.name == d.name
    ensures dto.address.Some? ==> e.address == dto.address
    ensures dto.address.None? ==> e.address == d.address
    ensures dto.groupId.Some? ==> e.groupId == dto.groupId
    ensures dto.groupId.None? ==> e.groupId == d.groupId
    ensures dto.notes.Some? ==> e.notes == dto.notes
    ensures dto.notes.None? ==> e.notes == d.notes
    ensures dto.scheduledStartTime.Some? ==> e.scheduledStartTime == dto.scheduledStartTime
    ensures dto.scheduledStartTime.None? ==> e.scheduledStartTime == d.scheduledStartTime
    ensures dto.status.Some? ==> ParseStatus(dto.status.value) == Some(e.status)
    ensures dto.status.None? ==> e.status == d.status
    ensures dto.deadline.Some? ==> e.deadline == dto.deadline
    ensures dto.deadline.None? ==> e.deadline == d.deadline
    ensures e.id == d.id && e.userId == d.userId && e.createdAt == d.createdAt
    ensures e.startTime == d.startTime && e.timerHours == d.timerHours
    ensures e.preAlarmSent == d.preAlarmSent && e.alarmProcessed == d.alarmProcessed
    ensures dto == UpdateDestinationDto(None, None, None, None, None, None, None) ==> e == d
  {
    AssignSchedule(AssignLabels(d, dto), dto)
  }

  /** The group an update body names, if any, is a row of `groups`: the
      foreign key on `groupId` rejects any other value. */
  predicate GroupReferenceHolds(dto: UpdateDestinationDto, groups: GroupStore) {
    dto.groupId.None? || dto.groupId.value in groups
  }

  /** `update`: only the owner's SAVED or SCHEDULED destination can be edited;
      the body is then merged as it is, so it may set any status (ACTIVE or
      ALARM_SENT included) and any deadline, and it may point `groupId` at a
      group the caller does not own. The save fails, and the row stays as it
      was, when the status is outside the enum or the group does not exist. */
  function Update(store: DestinationStore, groups: GroupStore, userId: UserId, id: DestinationId,
                  dto: UpdateDestinationDto): (r: Result<(DestinationStore, Destination)>)
    ensures !OwnsDestination(store, userId, id) ==> r == Err(NotFound(DestinationNotFound))
    ensures OwnsDestination(store, userId, id) && store[id].status !in {Saved, Scheduled}
      ==> r == Err(Forbidden(CannotEdit))
    ensures OwnsDestination(store, userId, id) && store[id].status in {Saved, Scheduled} && !StatusAccepted(dto)
      ==> r == Err(ServerError(InvalidStatus))
    ensures OwnsDestination(store, userId, id) && store[id].status in {Saved, Scheduled}
      && StatusAccepted(dto) && !GroupReferenceHolds(dto, groups)
      ==> r == Err(ServerError(DanglingGroup))
    ensures r.Ok? <==>
      && OwnsDestination(store, userId, id) && store[id].status in {Saved, Scheduled}
      && StatusAccepted(dto) && GroupReferenceHolds(dto, groups)
    ensures r.Ok? ==> r.value.0 == store[id := r.value.1] && r.value.1 == Assign(store[id], dto)
    ensures r.Ok? && WellKeyedDestinations(store) ==> WellKeyedDestinations(r.value.0)
  {
    if !OwnsDestination(store, userId, id) then
      Err(NotFound(DestinationNotFound))
    else if store[id].status !in {Saved, Scheduled} then
      Err(Forbidden(CannotEdit))
    else if !StatusAccepted(dto) then
      Err(ServerError(InvalidStatus))
    else if !GroupReferenceHolds(dto, groups) then
      Err(ServerError(DanglingGroup))
    else
      var d := Assign(store[id], dto);
      Ok((store[id := d], d))
  }

  // ---------------------------------------------------------------------------
  // delete
  // ---------------------------------------------------------------------------

  /** `delete`: only the owner's SAVED destination can be removed; afterwards
      its id is gone and every other row is as it was. */
  function Delete(store: DestinationStore, userId: UserId, id: DestinationId): (r: Result<(DestinationStore, Destination)>)
    ensures !OwnsDestination(store, userId, id) ==> r == Err(NotFound(DestinationNotFound))
    ensures OwnsDestination(store, userId, id) && store[id].status != Saved
      ==> r == Err(BadRequest(OnlySavedCanDelete))
    ensures r.Ok? <==> OwnsDestination(store, userId, id) && store[id].status == Saved
    ensures r.Ok? ==> id !in r.value.0 && r.value.0.Keys == store.Keys - {id} && r.value.1 == store[id]
    ensures r.Ok? ==> forall k :: k in r.value.0 ==> r.value.0[k] == store[k]
    ensures r.Ok? && WellKeyedDestinations(store) ==> WellKeyedDestinations(r.value.0)
  {
    if !OwnsDestination(store, userId, id) then
      Err(NotFound(DestinationNotFound))
    else if store[id].status != Saved then
      Err(BadRequest(OnlySavedCanDelete))
    else
      Ok((store - {id}, store[id]))
  }

  // ---------------------------------------------------------------------------
  // getActive, findAll
  // ---------------------------------------------------------------------------

  /** `getActive`: one of the caller's ACTIVE destinations, if there is any.
      Nothing keeps a user to one ACTIVE destination, and the database picks
      which one is returned. */
  method GetActive(store: DestinationStore, userId: UserId) returns (r: Option<Destination>)
    ensures r.None? <==> forall id :: id in store ==> !(store[id].userId == userId && store[id].status == Active)
    ensures r.Some? ==> exists id :: id in store && store[id] == r.value
    ensures r.Some? ==> r.value.userId == userId && r.value.status == Active
  {
    if exists id :: id in store && store[id].userId == userId && store[id].status == Active {
      var id :| id in store && store[id].userId == userId && store[id].status == Active;
      r := Some(store[id]);
    } else {
      r := None;
    }
  }

  /** Ordered by `createdAt`, newest first. */
  predicate NewestFirst(ds: seq<Destination>) {
    forall i, j :: 0 <= i < j < |ds| ==> ds[i].createdAt >= ds[j].createdAt
  }

  /** No destination is listed twice. */
  predicate DistinctIds(ds: seq<Destination>) {
    forall i, j :: 0 <= i < j < |ds| ==> ds[i].id != ds[j].id
  }

  /** Inserts `d` before the first entry that is not newer than it. */
  function InsertByAge(ds: seq<Destination>, d: Destination): (r: seq<Destination>)
    ensures multiset(r) == multiset(ds) + multiset{d}
  {
    if ds == [] || d.createdAt >= ds[0].createdAt then
      [d] + ds
    else
      assert ds == [ds[0]] + ds[1..];
      [ds[0]] + InsertByAge(ds[1..], d)
  }

  /** Insertion keeps a newest-first list newest first. */
  lemma {:induction false} InsertByAgeKeepsOrder(ds: seq<Destination>, d: Destination)
    requires NewestFirst(ds)
    ensures NewestFirst(InsertByAge(ds, d))
  {
    if ds == [] || d.createdAt >= ds[0].createdAt {
      assert forall j :: 0 <= j < |ds| ==> ds[j].createdAt <= ds[0].createdAt;
    } else {
      InsertByAgeKeepsOrder(ds[1..], d);
      var rest := InsertByAge(ds[1..], d);
      forall j | 0 <= j < |rest| ensures rest[j].createdAt <= ds[0].createdAt {
        assert rest[j] in multiset(ds[1..]) + multiset{d};
      }
    }
  }

  /** The list after an insertion holds the old entries and the new one. */
  lemma InsertByAgeMembers(ds: seq<Destination>, d: Destination)
    ensures forall x :: x in InsertByAge(ds, d) <==> x in ds || x == d
  {
  }

  /** Inserting a destination whose id is not listed keeps the ids distinct. */
  lemma {:induction false} InsertByAgeKeepsIdsDistinct(ds: seq<Destination>, d: Destination)
    requires DistinctIds(ds)
    requires forall x :: x in ds ==> x.id != d.id
    ensures DistinctIds(InsertByAge(ds, d))
  {
    if ds == [] || d.createdAt >= ds[0].createdAt {
    } else {
      InsertByAgeKeepsIdsDistinct(ds[1..], d);
      InsertByAgeMembers(ds[1..], d);
      var rest := InsertByAge(ds[1..], d);
      assert forall x :: x in ds[1..] ==> x.id != ds[0].id;
      assert forall x :: x in rest ==> x.id != ds[0].id;
    }
  }

  /** The ids of the destinations `userId` owns. */
  function DestinationsOf(store: DestinationStore, userId: UserId): set<DestinationId> {
    set id | id in store && store[id].userId == userId
  }

  /** `findAll`: every destination of the caller, once each, newest first,
      and nothing of anyone else's. */
  method FindAll(store: DestinationStore, userId: UserId) returns (r: seq<Destination>)
    requires WellKeyedDestinations(store)
    ensures NewestFirst(r) && DistinctIds(r)
    ensures forall d :: d in r <==> d.id in store && store[d.id] == d && d.userId == userId
  {
    var mine := DestinationsOf(store, userId);
    var todo := mine;
    r := [];
    while todo != {}
      invariant todo <= mine
      invariant NewestFirst(r) && DistinctIds(r)
      invariant forall d :: d in r <==> d.id in mine && d.id !in todo && store[d.id] == d
      decreases |todo|
    {
      var id :| id in todo;
      var d := store[id];
      assert forall x :: x in r ==> x.id != id;
      InsertByAgeKeepsOrder(r, d);
      InsertByAgeKeepsIdsDistinct(r, d);
      InsertByAgeMembers(r, d);
      r := InsertByAge(r, d);
      todo := todo - {id};
    }
  }
}

=== FILE: destinations_lifecycle.dfy ===
/** Properties of the destination lifecycle that relate several operations:
    how a row moves between the five statuses, what each move undoes or
    forbids, and the quirks of the free merge in `update`. */
module DestinationLifecycle {
  import opened Results
  import opened UserEntity
  import opened GroupEntity
  import opened DestinationEntity
  import opened DestinationDto
  import opened Destinations
  import opened Groups

  /** The store holds no ALARM_SENT row. */
  predicate NoAlarmSent(store: DestinationStore) {
    forall id :: id in store ==> store[id].status != AlarmSent
  }

  /** The ids of the caller's ACTIVE destinations. */
  function ActiveOf(store: DestinationStore, userId: UserId): set<DestinationId> {
    set id | id in store && store[id].userId == userId && store[id].status == Active
  }

  /** Saving a destination and deleting it again gives back the store it
      started from. */
  lemma CreateSavedThenDeleteRestores(store: DestinationStore, groups: GroupStore, userId: UserId,
                                      dto: CreateDestinationDto, newId: DestinationId, now: Millis)
    requires newId !in store
    requires dto.action != Some("startNow") && dto.action != Some("startLater")
    requires OwnsGroup(groups, userId, dto.groupId)
    ensures Create(store, groups, userId, dto, newId, now).Ok?
    ensures var c := Create(store, groups, userId, dto, newId, now);
      Delete(c.value.0, userId, newId) == Ok((store, c.value.1))
  {
    var c := Create(store, groups, userId, dto, newId, now);
    var after := c.value.0;
    assert after - {newId} == store;
  }

  /** A stopped destination is finished: it can be neither stopped nor
      snoozed again, nor edited, nor deleted. */
  lemma StopIsFinal(store: DestinationStore, groups: GroupStore, userId: UserId, id: DestinationId,
                    dto: UpdateDestinationDto)
    requires Stop(store, userId, id).Ok?
    ensures var after := Stop(store, userId, id).value.0;
      && Stop(after, userId, id) == Err(BadRequest(OnlyActiveCanStop))
      && Snooze(after, userId, id) == Err(BadRequest(NoActiveToSnooze))
      && Update(after, groups, userId, id, dto) == Err(Forbidden(CannotEdit))
      && Delete(after, userId, id) == Err(BadRequest(OnlySavedCanDelete))
  {
  }

  /** Two snoozes move the deadline two hours and leave the row ACTIVE. */
  lemma SnoozeTwiceAddsTwoHours(store: DestinationStore, userId: UserId, id: DestinationId)
    requires Snooze(store, userId, id).Ok?
    ensures var once := Snooze(store, userId, id).value.0;
      var twice := Snooze(once, userId, id);
      && twice.Ok?
      && twice.value.1.deadline == Some(store[id].deadline.value + 2 * HourMillis)
      && twice.value.1.status == Active
  {
  }

  /** Starting a timer of `h` hours and snoozing it once gives a deadline
      `h + 1` hours after the start. */
  lemma StartNowThenSnooze(store: DestinationStore, groups: GroupStore, userId: UserId,
                           dto: CreateDestinationDto, newId: DestinationId, now: Millis)
    requires newId !in store
    requires Create(store, groups, userId, dto, newId, now).Ok?
    requires dto.action == Some("startNow")
    ensures var c := Create(store, groups, userId, dto, newId, now).value.0;
      var s := Snooze(c, userId, newId);
      && s.Ok?
      && s.value.1.deadline == Some(now + (dto.timerHours.value + 1) * HourMillis)
      && s.value.1.startTime == Some(now)
  {
  }

  /** Only `update` can make a row ACTIVE without a deadline: a SAVED row
      without one, edited to status "active", is ACTIVE and cannot be snoozed,
      since the snooze then reads a missing deadline. */
  lemma UpdateMayActivateWithoutDeadline(store: DestinationStore, groups: GroupStore, userId: UserId,
                                         id: DestinationId)
    requires OwnsDestination(store, userId, id)
    requires store[id].status == Saved && store[id].deadline.None?
    ensures var dto := UpdateDestinationDto(None, None, None, None, None, Some("active"), None);
      var u := Update(store, groups, userId, id, dto);
      && u.Ok?
      && u.value.1.status == Active && u.value.1.deadline.None?
      && Snooze(u.value.0, userId, id) == Err(ServerError(NullDeadline))
  {
  }

  /** An edit that names status "alarm_sent" moves a SAVED or SCHEDULED row
      straight to ALARM_SENT and leaves `alarmProcessed` as it was. */
  lemma UpdateReachesAlarmSent(store: DestinationStore, groups: GroupStore, userId: UserId, id: DestinationId)
    requires OwnsDestination(store, userId, id) && store[id].status in {Saved, Scheduled}
    ensures var dto := UpdateDestinationDto(None, None, None, None, None, Some("alarm_sent"), None);
      var u := Update(store, groups, userId, id, dto);
      && u.Ok?
      && u.value.1.status == AlarmSent
      && u.value.1.alarmProcessed == store[id].alarmProcessed
  {
  }

  /** Create, stop, snooze and delete never bring a row into ALARM_SENT;
      of the service's operations only `update` can. */
  lemma OnlyUpdateEntersAlarmSent(store: DestinationStore, groups: GroupStore, userId: UserId,
                                  id: DestinationId, dto: CreateDestinationDto, now: Millis)
    requires NoAlarmSent(store)
    ensures id !in store && Create(store, groups, userId, dto, id, now).Ok? ==>
      NoAlarmSent(Create(store, groups, userId, dto, id, now).value.0)
    ensures Stop(store, userId, id).Ok? ==> NoAlarmSent(Stop(store, userId, id).value.0)
    ensures Snooze(store, userId, id).Ok? ==> NoAlarmSent(Snooze(store, userId, id).value.0)
    ensures Delete(store, userId, id).Ok? ==> NoAlarmSent(Delete(store, userId, id).value.0)
  {
  }

  /** Nothing limits a user to one ACTIVE timer: starting one while another
      runs leaves both ACTIVE. */
  lemma SeveralActivePerUser(store: DestinationStore, groups: GroupStore, userId: UserId,
                             dto: CreateDestinationDto, newId: DestinationId, now: Millis, running: DestinationId)
    requires newId !in store
    requires running in ActiveOf(store, userId)
    requires OwnsGroup(groups, userId, dto.groupId)
    requires dto.action == Some("startNow") && dto.timerHours.Some?
    ensures var c := Create(store, groups, userId, dto, newId, now);
      && c.Ok?
      && ActiveOf(c.value.0, userId) == ActiveOf(store, userId) + {newId}
      && {running, newId} <= ActiveOf(c.value.0, userId)
  {
  }

  /** The status in the body of a create request changes nothing: the action
      alone decides. */
  lemma CreateIgnoresPayloadStatus(store: DestinationStore, groups: GroupStore, userId: UserId,
                                   dto: CreateDestinationDto, newId: DestinationId, now: Millis, v: string)
    requires newId !in store
    ensures Create(store, groups, userId, dto.(status := v), newId, now)
         == Create(store, groups, userId, dto, newId, now)
  {
  }

  /** Stop, snooze and update write one row: the store they return differs
      from the old one at `id` alone. */
  lemma OnlyTheTargetRowChanges(store: DestinationStore, groups: GroupStore, userId: UserId, id: DestinationId,
                                dto: UpdateDestinationDto)
    ensures Stop(store, userId, id).Ok? ==> Stop(store, userId, id).value.0 - {id} == store - {id}
    ensures Snooze(store, userId, id).Ok? ==> Snooze(store, userId, id).value.0 - {id} == store - {id}
    ensures Update(store, groups, userId, id, dto).Ok? ==> Update(store, groups, userId, id, dto).value.0 - {id} == store - {id}
  {
  }

  /** Every destination that names a group names one that exists. */
  predicate GroupReferencesHold(store: DestinationStore, groups: GroupStore) {
    forall id :: id in store && store[id].groupId.Some? ==> store[id].groupId.value in groups
  }

  /** The foreign key on `groupId` holds after every write: create names one
      of the caller's groups, update is refused for a group that does not
      exist, and deleting a group clears the destinations that named it. */
  lemma GroupReferencesKept(store: DestinationStore, groups: GroupStore, userId: UserId, id: DestinationId,
                            create: CreateDestinationDto, update: UpdateDestinationDto, groupId: GroupId, now: Millis)
    requires GroupReferencesHold(store, groups)
    ensures id !in store && Create(store, groups, userId, create, id, now).Ok? ==>
      GroupReferencesHold(Create(store, groups, userId, create, id, now).value.0, groups)
    ensures Update(store, groups, userId, id, update).Ok? ==>
      GroupReferencesHold(Update(store, groups, userId, id, update).value.0, groups)
    ensures DeleteGroup(groups, store, userId, groupId).Ok? ==>
      var (gs, ds) := DeleteGroup(groups, store, userId, groupId).value;
      GroupReferencesHold(ds, gs)
  {
  }
}

=== FILE: group_dto.dfy ===
/** The class-validator rules declared on the request bodies of the groups
    API. `isEmail` stands for class-validator's `IsEmail` check, and lengths
    are validator.js's, which count code points. */
module GroupDto {
  import opened Results
  import opened Text

  /** The shortest and longest group name the rules accept. */
  const MinGroupName: nat := 2
  const MaxGroupName: nat := 30
  /** The most contacts a body may carry. */
  const MaxBodyContacts: nat := 20

  datatype CreateGroupDto = CreateGroupDto(name: string, contacts: seq<string>)

  /** Both fields may be left out. */
  datatype UpdateGroupDto = UpdateGroupDto(name: Option<string>, contacts: Option<seq<string>>)

  /** `@Length(2, 30)` on a name. */
  predicate NameRule(name: string) {
    MinGroupName <= ValidatorLength(name) <= MaxGroupName
  }

  /** `@ArrayMaxSize(20)` and `@IsEmail({}, { each: true })` on a contact list. */
  predicate ContactsRule(contacts: seq<string>, isEmail: string -> bool) {
    |contacts| <= MaxBodyContacts && forall i :: 0 <= i < |contacts| ==> isEmail(contacts[i])
  }

  predicate IsValidCreateGroupDto(dto: CreateGroupDto, isEmail: string -> bool) {
    NameRule(dto.name) && ContactsRule(dto.contacts, isEmail)
  }

  /** `@IsOptional()` skips the rules of an absent field; a present one obeys
      the same rules as on create. */
  predicate IsValidUpdateGroupDto(dto: UpdateGroupDto, isEmail: string -> bool) {
    && (dto.name.Some? ==> NameRule(dto.name.value))
    && (dto.contacts.Some? ==> ContactsRule(dto.contacts.value, isEmail))
  }

  /** An update body that carries both fields is valid exactly when the same
      fields make a valid create body, and the empty update body is valid. */
  lemma UpdateRulesMatchCreateRules(name: string, contacts: seq<string>, isEmail: string -> bool)
    ensures IsValidUpdateGroupDto(UpdateGroupDto(Some(name), Some(contacts)), isEmail)
      <==> IsValidCreateGroupDto(CreateGroupDto(name, contacts), isEmail)
    ensures IsValidUpdateGroupDto(UpdateGroupDto(None, None), isEmail)
  {
  }

  /** A name of code points other than the two presentation selectors passes
      the rule exactly when it has 2 to 30 characters; one-character and empty
      names never pass. */
  lemma NameRuleBounds(name: string)
    ensures (forall i :: 0 <= i < |name| ==> !IsPresentationSelector(name[i])) ==>
      (NameRule(name) <==> 2 <= |name| <= 30)
    ensures |name| < 2 ==> !NameRule(name)
  {
  }
}

=== FILE: group_entity.dfy ===
/** The `groups` table: a named list of emergency-contact addresses owned by
    one user. Deleting the owner deletes the user's groups. */
module GroupEntity {
  import opened UserEntity

  type GroupId = string

  /** One row of `groups`. `updatedAt` is not modelled. */
  datatype Group = Group(
    id: GroupId,
    name: string,
    contacts: seq<string>,
    userId: UserId,
    createdAt: Millis)

  /** The table, keyed by id. */
  type GroupStore = map<GroupId, Group>

  /** Every row is stored under its own id. */
  predicate WellKeyedGroups(groups: GroupStore) {
    forall id :: id in groups ==> groups[id].id == id
  }

  /** `findOne({ where: { id, userId } })` finds a row. */
  predicate OwnsGroup(groups: GroupStore, userId: UserId, id: GroupId) {
    id in groups && groups[id].userId == userId
  }

  /** The ids of the groups `userId` owns; `count({ where: { userId } })` is its size. */
  function GroupsOf(groups: GroupStore, userId: UserId): set<GroupId> {
    set id | id in groups && groups[id].userId == userId
  }

  /** The `onDelete: 'CASCADE'` rule on the owner: deleting a user deletes
      exactly that user's groups and leaves every other group as it was. */
  function DeleteOwnersGroups(groups: GroupStore, userId: UserId): (r: GroupStore)
    ensures forall id :: id in r ==> id in groups && r[id] == groups[id]
    ensures forall id :: id in groups ==> (id in r <==> groups[id].userId != userId)
    ensures GroupsOf(r, userId) == {}
  {
    map id | id in groups && groups[id].userId != userId :: groups[id]
  }
}

=== FILE: groups.dfy ===
/** The groups service: a user's emergency-contact groups, at most ten per
    user and at most twenty addresses per group, each address matching the
    service's e-mail pattern. Each operation is one atomic step on the store;
    `newId` is the fresh uuid and `now` the clock. */
module Groups {
  import opened Results
  import opened Text
  import opened UserEntity
  import opened GroupEntity
  import opened DestinationEntity

  const MaxGroupsPerUser: nat := 10
  const MaxContactsPerGroup: nat := 20

  const GroupLimitReached := "You have reached the maximum limit of 10 groups."
  const TooManyContactsOnCreate := "A group cannot exceed 20 contacts."
  const TooManyContactsOnUpdate := "Group cannot exceed 20 contacts."
  const GroupNotFound := "Group not found."
  const InvalidEmailsPrefix := "Invalid email formats: "

  // ---------------------------------------------------------------------------
  // validateEmails
  // ---------------------------------------------------------------------------

  /** `emails.filter(e => !emailRegex.test(e))`: the addresses the pattern
      rejects, in their original order. */
  function InvalidEmails(emails: seq<string>): (r: seq<string>)
    ensures |r| <= |emails|
    ensures forall e :: e in r <==> e in emails && !MatchesEmailRegex(e)
  {
    if emails == [] then []
    else
      var rest := InvalidEmails(emails[1..]);
      assert forall e :: e in emails <==> e == emails[0] || e in emails[1..];
      if MatchesEmailRegex(emails[0]) then rest else [emails[0]] + rest
  }

  /** The filter keeps the input's order: filtering a concatenation gives the
      filtered halves in the same order. */
  lemma {:induction false} InvalidEmailsKeepsOrder(a: seq<string>, b: seq<string>)
    ensures InvalidEmails(a + b) == InvalidEmails(a) + InvalidEmails(b)
  {
    if a == [] {
      assert a + b == b;
    } else {
      assert (a + b)[0] == a[0];
      assert (a + b)[1..] == a[1..] + b;
      InvalidEmailsKeepsOrder(a[1..], b);
    }
  }

  /** Every address matches the pattern. */
  predicate AllEmailsValid(emails: seq<string>) {
    forall i :: 0 <= i < |emails| ==> MatchesEmailRegex(emails[i])
  }

  /** `validateEmails`: no failure when every address matches, otherwise a
      BadRequest whose message lists the rejected addresses joined by ", ". */
  function ValidateEmails(emails: seq<string>): (r: Option<Failure>)
    ensures r.None? <==> AllEmailsValid(emails)
    ensures r.Some? ==> r.value.BadRequest?
  {
    var invalid := InvalidEmails(emails);
    if |invalid| > 0 then
      assert invalid[0] in invalid;
      Some(BadRequest(InvalidEmailsPrefix + Join(invalid, ", ")))
    else
      assert forall i :: 0 <= i < |emails| ==> emails[i] in emails;
      None
  }

  /** The message names every address the pattern rejects. */
  lemma ValidateEmailsNamesEveryInvalid(emails: seq<string>, e: string)
    requires e in emails && !MatchesEmailRegex(e)
    ensures ValidateEmails(emails).Some?
    ensures Contains(ValidateEmails(emails).value.message, e)
  {
    var invalid := InvalidEmails(emails);
    var k :| 0 <= k < |invalid| && invalid[k] == e;
    JoinContainsParts(invalid, ", ", k);
    var joined := Join(invalid, ", ");
    var i :| 0 <= i <= |joined| && OccursAt(joined, e, i);
    var msg := InvalidEmailsPrefix + joined;
    assert msg[|InvalidEmailsPrefix| + i..|InvalidEmailsPrefix| + i + |e|] == joined[i..i + |e|];
    assert OccursAt(msg, e, |InvalidEmailsPrefix| + i);
  }

  // ---------------------------------------------------------------------------
  // Store invariants
  // ---------------------------------------------------------------------------

  /** No user owns more than ten groups. */
  ghost predicate WithinGroupLimit(groups: GroupStore) {
    forall u :: |GroupsOf(groups, u)| <= MaxGroupsPerUser
  }

  /** Every stored group has at most twenty contacts, each matching the pattern. */
  predicate ContactsWellFormed(groups: GroupStore) {
    forall id :: id in groups ==>
      |groups[id].contacts| <= MaxContactsPerGroup && AllEmailsValid(groups[id].contacts)
  }

  // ---------------------------------------------------------------------------
  // createGroup
  // ---------------------------------------------------------------------------

  /** `createGroup`: the group count is checked first, then the number of
      contacts, then their format; the first failing check decides the error.
      The name is stored as given. */
  function CreateGroup(groups: GroupStore, userId: UserId, name: string, contacts: seq<string>,
                       newId: GroupId, now: Millis): (r: Result<(GroupStore, Group)>)
    requires newId !in groups
    ensures |GroupsOf(groups, userId)| >= MaxGroupsPerUser ==> r == Err(BadRequest(GroupLimitReached))
    ensures |GroupsOf(groups, userId)| < MaxGroupsPerUser && |contacts| > MaxContactsPerGroup
      ==> r == Err(BadRequest(TooManyContactsOnCreate))
    ensures (|GroupsOf(groups, userId)| < MaxGroupsPerUser && |contacts| <= MaxContactsPerGroup
             && !AllEmailsValid(contacts)) ==> r == Err(ValidateEmails(contacts).value)
    ensures r.Ok? <==>
      |GroupsOf(groups, userId)| < MaxGroupsPerUser && |contacts| <= MaxContactsPerGroup
      && AllEmailsValid(contacts)
    ensures r.Ok? ==>
      && r.value.0 == groups[newId := r.value.1]
      && r.value.1 == Group(newId, name, contacts, userId, now)
  {
    if |GroupsOf(groups, userId)| >= MaxGroupsPerUser then
      Err(BadRequest(GroupLimitReached))
    else if |contacts| > MaxContactsPerGroup then
      Err(BadRequest(TooManyContactsOnCreate))
    else if ValidateEmails(contacts).Some? then
      Err(ValidateEmails(contacts).value)
    else
      var g := Group(newId, name, contacts, userId, now);
      Ok((groups[newId := g], g))
  }

  /** A successful create adds one group to the caller's count, which stays
      at most ten, and leaves every other user's groups alone. */
  lemma CreateGroupCount(groups: GroupStore, userId: UserId, name: string, contacts: seq<string>,
                         newId: GroupId, now: Millis, other: UserId)
    requires newId !in groups
    requires CreateGroup(groups, userId, name, contacts, newId, now).Ok?
    ensures var after := CreateGroup(groups, userId, name, contacts, newId, now).value.0;
      && GroupsOf(after, userId) == GroupsOf(groups, userId) + {newId}
      && |GroupsOf(after, userId)| == |GroupsOf(groups, userId)| + 1 <= MaxGroupsPerUser
      && (other != userId ==> GroupsOf(after, other) == GroupsOf(groups, other))
  {
  }

  /** Creating a group keeps both store invariants. */
  lemma CreateGroupKeepsInvariants(groups: GroupStore, userId: UserId, name: string, contacts: seq<string>,
                                   newId: GroupId, now: Millis)
    requires newId !in groups
    requires WithinGroupLimit(groups) && ContactsWellFormed(groups)
    requires CreateGroup(groups, userId, name, contacts, newId, now).Ok?
    ensures var after := CreateGroup(groups, userId, name, contacts, newId, now).value.0;
      WithinGroupLimit(after) && ContactsWellFormed(after)
  {
    var after := CreateGroup(groups, userId, name, contacts, newId, now).value.0;
    forall u ensures |GroupsOf(after, u)| <= MaxGroupsPerUser {
      CreateGroupCount(groups, userId, name, contacts, newId, now, u);
    }
  }

  // ---------------------------------------------------------------------------
  // updateGroup
  // ---------------------------------------------------------------------------

  /** `updateGroup`: the caller's group only. A contact list in the body, even
      an empty one, is checked (count, then format) and replaces the stored
      one; a name replaces the stored one only when it is non-empty. */
  function UpdateGroup(groups: GroupStore, userId: UserId, groupId: GroupId,
                       name: Option<string>, contacts: Option<seq<string>>): (r: Result<(GroupStore, Group)>)
    ensures !OwnsGroup(groups, userId, groupId) ==> r == Err(NotFound(GroupNotFound))
    ensures OwnsGroup(groups, userId, groupId) && contacts.Some? && |contacts.value| > MaxContactsPerGroup
      ==> r == Err(BadRequest(TooManyContactsOnUpdate))
    ensures r.Ok? <==>
      OwnsGroup(groups, userId, groupId)
      && (contacts.Some? ==> |contacts.value| <= MaxContactsPerGroup && AllEmailsValid(contacts.value))
    ensures r.Err? && OwnsGroup(groups, userId, groupId) ==> r.error.BadRequest?
    ensures OwnsGroup(groups, userId, groupId) && contacts.Some? && |contacts.value| <= MaxContactsPerGroup
      && !AllEmailsValid(contacts.value)
      ==> r == Err(ValidateEmails(contacts.value).value)
    ensures r.Ok? ==>
      var (before, after) := (groups[groupId], r.value.1);
      && r.value.0 == groups[groupId := after]
      && after.contacts == (if contacts.Some? then contacts.value else before.contacts)
      && after.name == (if Truthy(name) then name.value else before.name)
      && after.(contacts := before.contacts, name := before.name) == before
  {
    if !OwnsGroup(groups, userId, groupId) then
      Err(NotFound(GroupNotFound))
    else if contacts.Some? && |contacts.value| > MaxContactsPerGroup then
      Err(BadRequest(TooManyContactsOnUpdate))
    else if contacts.Some? && ValidateEmails(contacts.value).Some? then
      Err(ValidateEmails(contacts.value).value)
    else
      var g := groups[groupId];
      var g1 := if contacts.Some? then g.(contacts := contacts.value) else g;
      var g2 := if Truthy(name) then g1.(name := name.value) else g1;
      Ok((groups[groupId := g2], g2))
  }

  /** An update keeps both store invariants and every group's owner and id. */
  lemma UpdateGroupKeepsInvariants(groups: GroupStore, userId: UserId, groupId: GroupId,
                                   name: Option<string>, contacts: Option<seq<string>>)
    requires WithinGroupLimit(groups) && ContactsWellFormed(groups)
    requires UpdateGroup(groups, userId, groupId, name, contacts).Ok?
    ensures var after := UpdateGroup(groups, userId, groupId, name, contacts).value.0;
      WithinGroupLimit(after) && ContactsWellFormed(after) && after.Keys == groups.Keys
  {
    var after := UpdateGroup(groups, userId, groupId, name, contacts).value.0;
    forall u ensures |GroupsOf(after, u)| <= MaxGroupsPerUser {
      assert GroupsOf(after, u) == GroupsOf(groups, u);
    }
  }

  /** An empty name and an absent one both leave the name as it was. */
  lemma UpdateGroupIgnoresEmptyName(groups: GroupStore, userId: UserId, groupId: GroupId,
                                    contacts: Option<seq<string>>)
    ensures UpdateGroup(groups, userId, groupId, Some(""), contacts)
         == UpdateGroup(groups, userId, groupId, None, contacts)
  {
  }

  // ---------------------------------------------------------------------------
  // deleteGroup, getUserGroups
  // ---------------------------------------------------------------------------

  /** `deleteGroup`: the caller's group only. The row goes, and the foreign key
      clears `groupId` in every destination that named it. */
  function DeleteGroup(groups: GroupStore, dests: DestinationStore, userId: UserId,
                       groupId: GroupId): (r: Result<(GroupStore, DestinationStore)>)
    ensures r.Err? <==> !OwnsGroup(groups, userId, groupId)
    ensures r.Err? ==> r.error == NotFound(GroupNotFound)
    ensures r.Ok? ==> r.value.0 == groups - {groupId} && r.value.1 == ClearDeletedGroup(dests, groupId)
  {
    if !OwnsGroup(groups, userId, groupId) then Err(NotFound(GroupNotFound))
    else Ok((groups - {groupId}, ClearDeletedGroup(dests, groupId)))
  }

  /** After a delete the caller owns one group fewer, no destination still
      refers to the group, and the store invariants hold. */
  lemma DeleteGroupRemovesIt(groups: GroupStore, dests: DestinationStore, userId: UserId, groupId: GroupId)
    requires WithinGroupLimit(groups) && ContactsWellFormed(groups)
    requires DeleteGroup(groups, dests, userId, groupId).Ok?
    ensures var (gs, ds) := DeleteGroup(groups, dests, userId, groupId).value;
      && GroupsOf(gs, userId) == GroupsOf(groups, userId) - {groupId}
      && |GroupsOf(gs, userId)| == |GroupsOf(groups, userId)| - 1
      && (forall id :: id in ds ==> ds[id].groupId != Some(groupId))
      && ds.Keys == dests.Keys
      && WithinGroupLimit(gs) && ContactsWellFormed(gs)
  {
    var gs := groups - {groupId};
    assert GroupsOf(gs, userId) == GroupsOf(groups, userId) - {groupId};
    forall u ensures |GroupsOf(gs, u)| <= MaxGroupsPerUser {
      assert GroupsOf(gs, u) <= GroupsOf(groups, u);
      SubsetCardinality(GroupsOf(gs, u), GroupsOf(groups, u));
    }
  }

  lemma SubsetCardinality<T>(a: set<T>, b: set<T>)
    requires a <= b
    ensures |a| <= |b|
  {
    assert b == a + (b - a);
  }

  /** `getUserGroups`: the caller's groups, in no particular order. */
  function GetUserGroups(groups: GroupStore, userId: UserId): (r: set<Group>)
    requires WellKeyedGroups(groups)
    ensures forall g :: g in r <==> g.id in groups && groups[g.id] == g && g.userId == userId
    ensures |r| == |GroupsOf(groups, userId)|
  {
    var ids := GroupsOf(groups, userId);
    var r := set id | id in ids :: groups[id];
    IdsCardinality(groups, ids);
    r
  }

  /** Distinct ids of a well-keyed store name distinct groups. */
  lemma {:induction false} IdsCardinality(groups: GroupStore, ids: set<GroupId>)
    requires WellKeyedGroups(groups) && ids <= groups.Keys
    ensures |set id | id in ids :: groups[id]| == |ids|
    decreases |ids|
  {
    if ids != {} {
      var x :| x in ids;
      var rest := ids - {x};
      IdsCardinality(groups, rest);
      var s := set id | id in ids :: groups[id];
      var t := set id | id in rest :: groups[id];
      assert s == t + {groups[x]};
      assert groups[x] !in t;
    } else {
      assert (set id | id in ids :: groups[id]) == {};
    }
  }
}

=== FILE: results.dfy ===
/** Outcomes shared by every service: an optional value, the HTTP exceptions the
    services throw, and a result that carries either a value or one of those
    exceptions. */
module Results {

  /** A value that may be absent: a nullable column or an optional request field. */
  datatype Option<+T> = None | Some(value: T)

  /** The exceptions the services raise, by the HTTP status NestJS answers with.
      `ServerError` stands for everything that is not an `HttpException`
      (a plain `Error`, a `TypeError`, a rejected database write): NestJS
      answers those with status 500. */
  datatype Failure =
    | BadRequest(message: string)
    | NotFound(message: string)
    | Forbidden(message: string)
    | Conflict(message: string)
    | Unauthorized(message: string)
    | ServerError(message: string)

  /** Either the value a service call returns or the exception it throws. */
  datatype Result<+T> = Ok(value: T) | Err(error: Failure) {

    predicate IsFailure() {
      Err?
    }

    function PropagateFailure<U>(): Result<U>
      requires Err?
    {
      Err(error)
    }

    function Extract(): T
      requires Ok?
    {
      value
    }
  }

  /** JavaScript truthiness of an optional string: present and not empty. */
  predicate Truthy(s: Option<string>) {
    s.Some? && s.value != ""
  }

  /** The value a request field gives a column: the field's own when the body
      carries it, the stored one when it leaves the field out. */
  function Overwrite<T>(field: Option<T>, current: T): (v: T)
    ensures field.Some? ==> v == field.value
    ensures field.None? ==> v == current
  {
    if field.Some? then field.value else current
  }
}

=== FILE: signup_dto.dfy ===
/** The class-validator rules on the sign-up body, the one body the API runs
    through a validation pipe. `isEmail` stands for class-validator's
    `IsEmail` check; lengths are validator.js's, which count code points. */
module SignUpRules {
  import opened Text

  datatype SignUpDto = SignUpDto(
    displayName: string,
    username: string,
    email: string,
    password: string)

  /** A character of the class `[a-zA-Z0-9_]`. */
  predicate IsUsernameChar(c: char) {
    ('a' <= c <= 'z') || ('A' <= c <= 'Z') || ('0' <= c <= '9') || c == '_'
  }

  /** `^[a-zA-Z0-9_]+$`. */
  predicate MatchesUsernamePattern(s: string) {
    |s| > 0 && forall i :: 0 <= i < |s| ==> IsUsernameChar(s[i])
  }

  /** `@IsNotEmpty()`, `@MinLength(2)` on the display name. */
  predicate DisplayNameRule(s: string) {
    s != "" && ValidatorLength(s) >= 2
  }

  /** `@IsNotEmpty()`, `@MinLength(3)`, `@MaxLength(20)` and the pattern on the username. */
  predicate UsernameRule(s: string) {
    s != "" && 3 <= ValidatorLength(s) <= 20 && MatchesUsernamePattern(s)
  }

  /** `@IsNotEmpty()`, `@MinLength(8)` on the password. */
  predicate PasswordRule(s: string) {
    s != "" && ValidatorLength(s) >= 8
  }

  predicate IsValidSignUpDto(dto: SignUpDto, isEmail: string -> bool) {
    DisplayNameRule(dto.displayName) && UsernameRule(dto.username)
    && isEmail(dto.email) && PasswordRule(dto.password)
  }

  /** A username the rules accept is 3 to 20 ASCII letters, digits and
      underscores; in particular it has no `@`, so it is never an e-mail
      address. */
  lemma UsernameRuleIsAsciiWord(s: string)
    ensures UsernameRule(s) <==> 3 <= |s| <= 20 && MatchesUsernamePattern(s)
    ensures UsernameRule(s) ==> '@' !in s
  {
  }

  /** The display-name rule is exactly a length of at least two, and the
      password rule a length of at least eight: `IsNotEmpty` adds nothing. */
  lemma NotEmptyIsImplied(dto: SignUpDto)
    ensures DisplayNameRule(dto.displayName) <==> ValidatorLength(dto.displayName) >= 2
    ensures PasswordRule(dto.password) <==> ValidatorLength(dto.password) >= 8
  {
  }
}

=== FILE: text.dfy ===
/** String functions the services rely on, written out with JavaScript's
    semantics: the `\s` class of regular expressions and `String.prototype.trim`,
    UTF-16 length, validator.js's length, `Array.prototype.join`,
    `split('@')[0]`, `Number.prototype.toString` and `slice(-k)`, and the
    e-mail pattern `^[^\s@]+@[^\s@]+\.[^\s@]+$` of the groups service.
    Strings are sequences of Unicode scalar values. */
module Text {
  import opened Results

  // ---------------------------------------------------------------------------
  // Whitespace and trimming
  // ---------------------------------------------------------------------------

  /** The characters `\s` matches in an ECMAScript regular expression; they are
      also exactly the characters `String.prototype.trim` removes. */
  predicate IsJsWhitespace(c: char) {
    || c == '\t' || c == '\n' || c == '\U{000B}' || c == '\U{000C}' || c == '\r'
    || c == ' ' || c == '\U{00A0}' || c == '\U{1680}'
    || ('\U{2000}' <= c <= '\U{200A}')
    || c == '\U{2028}' || c == '\U{2029}' || c == '\U{202F}' || c == '\U{205F}'
    || c == '\U{3000}' || c == '\U{FEFF}'
  }

  predicate AllWhitespace(s: string) {
    forall i :: 0 <= i < |s| ==> IsJsWhitespace(s[i])
  }

  /** Drops leading whitespace. */
  function TrimStart(s: string): (r: string)
    ensures |r| <= |s| && r == s[|s| - |r|..]
    ensures r == [] || !IsJsWhitespace(r[0])
    ensures AllWhitespace(s[..|s| - |r|])
  {
    if |s| > 0 && IsJsWhitespace(s[0]) then
      var r := TrimStart(s[1..]);
      assert s[..|s| - |r|] == [s[0]] + s[1..][..|s[1..]| - |r|];
      r
    else
      s
  }

  /** Drops trailing whitespace. */
  function TrimEnd(s: string): (r: string)
    ensures |r| <= |s| && r == s[..|r|]
    ensures r == [] || !IsJsWhitespace(r[|r| - 1])
    ensures AllWhitespace(s[|r|..])
  {
    if |s| > 0 && IsJsWhitespace(s[|s| - 1]) then
      var r := TrimEnd(s[..|s| - 1]);
      assert s[|r|..] == s[..|s| - 1][|r|..] + [s[|s| - 1]];
      r
    else
      s
  }

  /** `String.prototype.trim`: `s` without its leading and trailing whitespace. */
  function Trim(s: string): (r: string)
    ensures |r| <= |s|
    ensures r == [] || (!IsJsWhitespace(r[0]) && !IsJsWhitespace(r[|r| - 1]))
  {
    TrimEnd(TrimStart(s))
  }

  /** Trimming leaves nothing exactly when the string is all whitespace. */
  lemma TrimEmptyIffAllWhitespace(s: string)
    ensures Trim(s) == [] <==> AllWhitespace(s)
  {
  }

  /** A string that neither starts nor ends with whitespace is its own trim. */
  lemma TrimOfUnpadded(s: string)
    requires |s| > 0 && !IsJsWhitespace(s[0]) && !IsJsWhitespace(s[|s| - 1])
    ensures Trim(s) == s
  {
  }

  // ---------------------------------------------------------------------------
  // Lengths
  // ---------------------------------------------------------------------------

  /** Number of UTF-16 code units of one scalar value. */
  function Utf16Units(c: char): nat {
    if c as int > 0xFFFF then 2 else 1
  }

  /** JavaScript's `String.prototype.length`: UTF-16 code units. */
  function Utf16Length(s: string): (n: nat)
    ensures |s| <= n <= 2 * |s|
    ensures (forall i :: 0 <= i < |s| ==> s[i] as int <= 0xFFFF) ==> n == |s|
  {
    if s == [] then 0 else Utf16Units(s[0]) + Utf16Length(s[1..])
  }

  /** Variation selectors 15 and 16, which validator.js's `isLength` does not count. */
  predicate IsPresentationSelector(c: char) {
    c == '\U{FE0E}' || c == '\U{FE0F}'
  }

  /** The length class-validator's `Length`, `MinLength` and `MaxLength` compare:
      validator.js's `isLength`, which counts a surrogate pair once and skips
      presentation selectors. */
  function ValidatorLength(s: string): (n: nat)
    ensures n <= |s|
    ensures (forall i :: 0 <= i < |s| ==> !IsPresentationSelector(s[i])) ==> n == |s|
  {
    if s == [] then 0
    else (if IsPresentationSelector(s[0]) then 0 else 1) + ValidatorLength(s[1..])
  }

  // ---------------------------------------------------------------------------
  // Substrings, join and split
  // ---------------------------------------------------------------------------

  /** `needle` occurs in `hay` starting at position `i`. */
  predicate OccursAt(hay: string, needle: string, i: int) {
    0 <= i && i + |needle| <= |hay| && hay[i..i + |needle|] == needle
  }

  predicate Contains(hay: string, needle: string) {
    exists i | 0 <= i <= |hay| :: OccursAt(hay, needle, i)
  }

  /** `Array.prototype.join(sep)` on an array of strings. */
  function Join(parts: seq<string>, sep: string): string {
    if |parts| == 0 then ""
    else if |parts| == 1 then parts[0]
    else parts[0] + sep + Join(parts[1..], sep)
  }

  /** Every part appears verbatim in the joined string. */
  lemma {:induction false} JoinContainsParts(parts: seq<string>, sep: string, k: nat)
    requires k < |parts|
    ensures Contains(Join(parts, sep), parts[k])
  {
    var j := Join(parts, sep);
    if |parts| == 1 {
      assert OccursAt(j, parts[k], 0);
    } else if k == 0 {
      assert j[..|parts[0]|] == parts[0];
      assert OccursAt(j, parts[k], 0);
    } else {
      JoinContainsParts(parts[1..], sep, k - 1);
      var rest := Join(parts[1..], sep);
      assert parts[1..][k - 1] == parts[k];
      var i :| 0 <= i <= |rest| && OccursAt(rest, parts[k], i);
      var off := |parts[0]| + |sep|;
      assert j == parts[0] + sep + rest;
      assert j[off + i..off + i + |parts[k]|] == rest[i..i + |parts[k]|];
      assert OccursAt(j, parts[k], off + i);
    }
  }

  /** The text before the first `c`, or all of `s` when `c` does not occur:
      `s.split(c)[0]` for a one-character separator. */
  function BeforeFirst(s: string, c: char): (r: string)
    ensures |r| <= |s| && r == s[..|r|]
    ensures c !in r
    ensures |r| < |s| ==> s[|r|] == c
  {
    if s == [] || s[0] == c then [] else [s[0]] + BeforeFirst(s[1..], c)
  }

  /** `s.slice(-k)` for `k > 0`: the last `k` characters, or all of `s` when it is shorter. */
  function Last(s: string, k: nat): (r: string)
    ensures |r| == if |s| < k then |s| else k
    ensures r == s[|s| - |r|..]
  {
    if |s| < k then s else s[|s| - k..]
  }

  // ---------------------------------------------------------------------------
  // Decimal digits
  // ---------------------------------------------------------------------------

  function Digit(d: nat): (c: char)
    requires d < 10
    ensures '0' <= c <= '9'
  {
    ('0' as int + d) as char
  }

  function Pow10(k: nat): (p: nat)
    ensures p >= 1
  {
    if k == 0 then 1 else 10 * Pow10(k - 1)
  }

  /** `Number.prototype.toString()` of a non-negative integer: its decimal digits
      without leading zeros. */
  function DecimalString(n: nat): (r: string)
    ensures |r| >= 1
    ensures forall i :: 0 <= i < |r| ==> '0' <= r[i] <= '9'
  {
    if n < 10 then [Digit(n)] else DecimalString(n / 10) + [Digit(n % 10)]
  }

  /** The last `k` decimal digits of `n`, zero-padded to exactly `k` characters. */
  function LowDigits(n: nat, k: nat): (r: string)
    ensures |r| == k
  {
    if k == 0 then [] else LowDigits(n / 10, k - 1) + [Digit(n % 10)]
  }

  /** A number with at least `k` digits ends, in decimal, with its `k` low digits. */
  lemma {:induction false} DecimalStringEndsWithLowDigits(n: nat, k: nat)
    requires k >= 1 && n >= Pow10(k - 1)
    ensures Last(DecimalString(n), k) == LowDigits(n, k)
  {
    if k == 1 {
      if n < 10 {
        assert LowDigits(n, 1) == LowDigits(n / 10, 0) + [Digit(n % 10)];
      }
    } else {
      var q, d := n / 10, n % 10;
      assert q >= Pow10(k - 2) by {
        assert Pow10(k - 1) == 10 * Pow10(k - 2);
      }
      assert DecimalString(n) == DecimalString(q) + [Digit(d)];
      assert LowDigits(n, k) == LowDigits(q, k - 1) + [Digit(d)];
      DecimalStringEndsWithLowDigits(q, k - 1);
      assert |DecimalString(q)| >= k - 1;
      LastOfAppend(DecimalString(q), k - 1, Digit(d));
    }
  }

  /** Appending one character extends the last `k` characters to the last `k + 1`. */
  lemma LastOfAppend(h: string, k: nat, c: char)
    requires |h| >= k
    ensures Last(h + [c], k + 1) == Last(h, k) + [c]
  {
  }

  // ---------------------------------------------------------------------------
  // The groups service's e-mail pattern
  // ---------------------------------------------------------------------------

  /** A character of the class `[^\s@]`. */
  predicate IsAtomChar(c: char) {
    !IsJsWhitespace(c) && c != '@'
  }

  /** `s` matches `[^\s@]+` as a whole. */
  predicate IsAtom(s: string) {
    |s| > 0 && forall i :: 0 <= i < |s| ==> IsAtomChar(s[i])
  }

  /** The regular expression `^[^\s@]+@[^\s@]+\.[^\s@]+$`, read literally: `s`
      splits as atom, `@`, atom, `.`, atom. */
  predicate MatchesEmailRegex(s: string) {
    exists i, k | 0 < i < k < |s| ::
      s[i] == '@' && s[k] == '.' && IsAtom(s[..i]) && IsAtom(s[i + 1..k]) && IsAtom(s[k + 1..])
  }

  /** The first position of `c` in `s`, if any. */
  function IndexOf(s: string, c: char): (r: Option<nat>)
    ensures r.None? <==> c !in s
    ensures r.Some? ==> r.value < |s| && s[r.value] == c && c !in s[..r.value]
  {
    if s == [] then None
    else if s[0] == c then Some(0)
    else match IndexOf(s[1..], c)
      case None => None
      case Some(j) =>
        assert s[..j + 1] == [s[0]] + s[1..][..j];
        Some(j + 1)
  }

  /** A scanning reading of the same pattern: one `@`, found by search, with a
      non-empty local part before it, and after it a domain free of `@` and
      whitespace with a dot that is neither its first nor its last character. */
  predicate IsEmailFormat(s: string) {
    match IndexOf(s, '@')
    case None => false
    case Some(i) =>
      && IsAtom(s[..i])
      && (forall j :: i < j < |s| ==> IsAtomChar(s[j]))
      && (exists k :: i + 1 < k < |s| - 1 && s[k] == '.')
  }

  /** The scanning reading accepts exactly the strings the regular expression matches. */
  lemma EmailFormatMatchesRegex(s: string)
    ensures IsEmailFormat(s) <==> MatchesEmailRegex(s)
  {
    if MatchesEmailRegex(s) {
      RegexMatchIsEmailFormat(s);
    }
    if IsEmailFormat(s) {
      EmailFormatIsRegexMatch(s);
    }
  }

  /** A regular-expression match passes the scanning reading. */
  lemma RegexMatchIsEmailFormat(s: string)
    requires MatchesEmailRegex(s)
    ensures IsEmailFormat(s)
  {
    var i, k :| 0 < i < k < |s| && s[i] == '@' && s[k] == '.'
      && IsAtom(s[..i]) && IsAtom(s[i + 1..k]) && IsAtom(s[k + 1..]);
    var local, mid, top := s[..i], s[i + 1..k], s[k + 1..];
    assert '@' !in local by {
      forall j | 0 <= j < |local| ensures local[j] != '@' {
        assert IsAtomChar(local[j]);
      }
    }
    assert IndexOf(s, '@') == Some(i);
    forall j | i < j < |s| ensures IsAtomChar(s[j]) {
      if j < k {
        assert s[j] == mid[j - i - 1];
      } else if j > k {
        assert s[j] == top[j - k - 1];
      }
    }
  }

  /** A string the scanning reading accepts matches the regular expression. */
  lemma EmailFormatIsRegexMatch(s: string)
    requires IsEmailFormat(s)
    ensures MatchesEmailRegex(s)
  {
    var i := IndexOf(s, '@').value;
    var k :| i + 1 < k < |s| - 1 && s[k] == '.';
    var mid, top := s[i + 1..k], s[k + 1..];
    forall j | 0 <= j < |mid| ensures IsAtomChar(mid[j]) {
      assert mid[j] == s[i + 1 + j];
    }
    forall j | 0 <= j < |top| ensures IsAtomChar(top[j]) {
      assert top[j] == s[k + 1 + j];
    }
    assert IsAtom(mid) && IsAtom(top);
  }
}

=== FILE: user_dto.dfy ===
/** The class-validator rules declared on the profile-update body. Every
    field may be left out. `isEmail` stands for class-validator's `IsEmail`
    check; lengths are validator.js's, which count code points. */
module UserDto {
  import opened Results
  import opened Text

  datatype UpdateProfileDto = UpdateProfileDto(
    displayName: Option<string>,
    heirEmail: Option<string>,
    deadSwitchEnabled: Option<bool>,
    deadSwitchDurationHours: Option<int>)

  /** `@IsOptional()` skips the rules of an absent field. A present display
      name has 2 to 50 characters, a present heir address is an e-mail
      address, and a present duration is at least one hour; the boolean's
      type is the rule on the switch. */
  predicate IsValidUpdateProfileDto(dto: UpdateProfileDto, isEmail: string -> bool) {
    && (dto.displayName.Some? ==> 2 <= ValidatorLength(dto.displayName.value) <= 50)
    && (dto.heirEmail.Some? ==> isEmail(dto.heirEmail.value))
    && (dto.deadSwitchDurationHours.Some? ==> dto.deadSwitchDurationHours.value >= 1)
  }

  /** The empty body is valid, the switch never affects validity, and each
      field is judged on its own. */
  lemma UpdateProfileRulesPerField(dto: UpdateProfileDto, isEmail: string -> bool, enabled: Option<bool>)
    ensures IsValidUpdateProfileDto(UpdateProfileDto(None, None, None, None), isEmail)
    ensures IsValidUpdateProfileDto(dto.(deadSwitchEnabled := enabled), isEmail)
      <==> IsValidUpdateProfileDto(dto, isEmail)
    ensures IsValidUpdateProfileDto(dto, isEmail) <==>
      && IsValidUpdateProfileDto(UpdateProfileDto(dto.displayName, None, None, None), isEmail)
      && IsValidUpdateProfileDto(UpdateProfileDto(None, dto.heirEmail, None, None), isEmail)
      && IsValidUpdateProfileDto(UpdateProfileDto(None, None, None, dto.deadSwitchDurationHours), isEmail)
  {
  }

  /** A one-character display name and a zero-hour duration are refused. */
  lemma UpdateProfileRulesRefuse(name: string, isEmail: string -> bool)
    requires |name| < 2
    ensures !IsValidUpdateProfileDto(UpdateProfileDto(Some(name), None, None, None), isEmail)
    ensures !IsValidUpdateProfileDto(UpdateProfileDto(None, None, None, Some(0)), isEmail)
  {
  }
}

=== FILE: user_entity.dfy ===
/** The `users` table: the `User` record, its column defaults, the unique
    constraints on `email` and `username`, and the two projections the
    services read it through (the default selection, which leaves out the
    password, and the explicit column list of the login lookup). */
module UserEntity {
  import opened Results

  type UserId = string

  /** Instants, as milliseconds since the Unix epoch. */
  type Millis = int

  /** One row of `users`. `createdAt` and `updatedAt` are not modelled. */
  datatype User = User(
    id: UserId,
    email: string,
    username: string,
    displayName: string,
    password: string,
    googleId: Option<string>,
    picture: Option<string>,
    heirEmail: Option<string>,
    deadSwitchEnabled: bool,
    deadSwitchDurationHours: Option<int>,
    resetPasswordToken: Option<string>,
    resetPasswordExpires: Option<Millis>,
    isEmailVerified: bool,
    verificationId: Option<string>,
    verificationExpires: Option<Millis>)

  /** The table, in the order a scan returns its rows. */
  type UserTable = seq<User>

  /** The primary key and the two unique columns hold distinct values in distinct rows. */
  predicate Unique(users: UserTable) {
    forall i, j :: 0 <= i < j < |users| ==>
      && users[i].id != users[j].id
      && users[i].email != users[j].email
      && users[i].username != users[j].username
  }

  /** `findOne`: the first row the predicate accepts. */
  function FindFirst(users: UserTable, p: User -> bool): (r: Option<User>)
    ensures r.None? <==> forall i :: 0 <= i < |users| ==> !p(users[i])
    ensures r.Some? ==> exists i :: 0 <= i < |users| && users[i] == r.value
    ensures r.Some? ==> p(r.value)
  {
    if users == [] then None
    else if p(users[0]) then Some(users[0])
    else
      var r := FindFirst(users[1..], p);
      assert forall i :: 1 <= i < |users| ==> users[i] == users[1..][i - 1];
      r
  }

  function FindById(users: UserTable, id: UserId): Option<User> {
    FindFirst(users, (u: User) => u.id == id)
  }

  function FindByEmail(users: UserTable, email: string): Option<User> {
    FindFirst(users, (u: User) => u.email == email)
  }

  function FindByUsername(users: UserTable, username: string): Option<User> {
    FindFirst(users, (u: User) => u.username == username)
  }

  /** Under the unique constraints a lookup by a unique column finds the one
      row that holds the value. */
  lemma FindUniqueRow(users: UserTable, k: nat)
    requires Unique(users) && k < |users|
    ensures FindById(users, users[k].id) == Some(users[k])
    ensures FindByEmail(users, users[k].email) == Some(users[k])
    ensures FindByUsername(users, users[k].username) == Some(users[k])
  {
  }

  /** The values a new row is created from; absent columns take their defaults. */
  datatype NewUser = NewUser(
    email: string,
    username: string,
    displayName: string,
    password: string,
    picture: Option<string>,
    googleId: Option<string>,
    isEmailVerified: Option<bool>)

  /** The row `save` writes for `data`: `isEmailVerified` and
      `deadSwitchEnabled` default to false, the nullable columns to null. */
  function NewRow(id: UserId, data: NewUser): (u: User)
    ensures u.isEmailVerified <==> data.isEmailVerified == Some(true)
    ensures !u.deadSwitchEnabled
    ensures u.verificationId.None? && u.resetPasswordToken.None? && u.heirEmail.None?
  {
    User(id, data.email, data.username, data.displayName, data.password,
         data.googleId, data.picture, None, false, None, None, None,
         data.isEmailVerified == Some(true), None, None)
  }

  const UniqueViolation := "duplicate key value violates unique constraint"

  /** INSERT of a new row. The database rejects it when the e-mail address or
      the username is already taken; the id is a fresh uuid. */
  function Insert(users: UserTable, id: UserId, data: NewUser): (r: Result<(UserTable, User)>)
    requires FindById(users, id).None?
    ensures r.Err? <==> FindByEmail(users, data.email).Some? || FindByUsername(users, data.username).Some?
    ensures r.Err? ==> r.error == ServerError(UniqueViolation)
    ensures r.Ok? ==> r.value.0 == users + [r.value.1] && r.value.1 == NewRow(id, data)
    ensures r.Ok? && Unique(users) ==> Unique(r.value.0)
  {
    if FindByEmail(users, data.email).Some? || FindByUsername(users, data.username).Some? then
      Err(ServerError(UniqueViolation))
    else
      var u := NewRow(id, data);
      var users' := users + [u];
      assert forall i :: 0 <= i < |users| ==> users'[i] == users[i];
      assert forall i :: 0 <= i < |users| ==> users[i].id != id;
      Ok((users', u))
  }

  /** `repository.update(id, ...)`: applies `f` to the row with that id, if
      any, and leaves every other row as it was. */
  function UpdateWhere(users: UserTable, id: UserId, f: User -> User): (r: UserTable)
    ensures |r| == |users|
    ensures forall i :: 0 <= i < |users| && users[i].id != id ==> r[i] == users[i]
    ensures forall i :: 0 <= i < |users| && users[i].id == id ==> r[i] == f(users[i])
  {
    seq(|users|, i requires 0 <= i < |users| => if users[i].id == id then f(users[i]) else users[i])
  }

  /** `f` leaves the id, e-mail address and username of every row alone. */
  predicate KeepsKeys(users: UserTable, f: User -> User) {
    forall i :: 0 <= i < |users| ==>
      f(users[i]).id == users[i].id && f(users[i]).email == users[i].email
      && f(users[i]).username == users[i].username
  }

  /** An update that does not touch the unique columns keeps them unique. */
  lemma UpdateWhereKeepsUnique(users: UserTable, id: UserId, f: User -> User)
    requires Unique(users) && KeepsKeys(users, f)
    ensures Unique(UpdateWhere(users, id, f))
  {
  }

  /** Looking a row up by id after an update of that row that keeps the keys
      finds the updated row. */
  lemma FindByIdAfterUpdate(users: UserTable, id: UserId, f: User -> User, k: nat)
    requires Unique(users) && KeepsKeys(users, f)
    requires k < |users| && users[k].id == id
    ensures FindById(UpdateWhere(users, id, f), id) == Some(f(users[k]))
    ensures Unique(UpdateWhere(users, id, f))
  {
    var r := UpdateWhere(users, id, f);
    UpdateWhereKeepsUnique(users, id, f);
    FindUniqueRow(r, k);
  }

  /** An update of an id no row holds changes nothing. */
  lemma UpdateOfMissingRow(users: UserTable, id: UserId, f: User -> User)
    requires FindById(users, id).None?
    ensures UpdateWhere(users, id, f) == users
  {
  }

  /** The index of the row a lookup by id found. */
  lemma RowOfId(users: UserTable, id: UserId) returns (k: nat)
    requires FindById(users, id).Some?
    ensures k < |users| && users[k].id == id && users[k] == FindById(users, id).value
  {
    var u := FindById(users, id).value;
    k :| 0 <= k < |users| && users[k] == u;
  }

  /** The position of the row a lookup by e-mail address finds. */
  lemma RowOfEmail(users: UserTable, email: string) returns (k: nat)
    requires FindByEmail(users, email).Some?
    ensures k < |users| && users[k].email == email && users[k] == FindByEmail(users, email).value
  {
    var u := FindByEmail(users, email).value;
    k :| 0 <= k < |users| && users[k] == u;
  }

  /** What a default `findOne` loads: every column but `password`, which is
      declared `select: false`. */
  datatype PublicUser = PublicUser(
    id: UserId,
    email: string,
    username: string,
    displayName: string,
    googleId: Option<string>,
    picture: Option<string>,
    heirEmail: Option<string>,
    deadSwitchEnabled: bool,
    deadSwitchDurationHours: Option<int>,
    resetPasswordToken: Option<string>,
    resetPasswordExpires: Option<Millis>,
    isEmailVerified: bool,
    verificationId: Option<string>,
    verificationExpires: Option<Millis>)

  function DefaultSelect(u: User): PublicUser {
    PublicUser(u.id, u.email, u.username, u.displayName, u.googleId, u.picture,
               u.heirEmail, u.deadSwitchEnabled, u.deadSwitchDurationHours,
               u.resetPasswordToken, u.resetPasswordExpires, u.isEmailVerified,
               u.verificationId, u.verificationExpires)
  }

  /** Two rows that differ only in their password load the same entity: the
      default selection carries nothing of the password. */
  lemma DefaultSelectHidesPassword(u: User, password: string)
    ensures DefaultSelect(u.(password := password)) == DefaultSelect(u)
  {
  }
}

=== FILE: users.dfy ===
/** The users service: the login lookup and its column list, account
    creation with its default avatar, the writes that issue and consume the
    two tokens, the display-name check and the profile update with its
    dead-switch guard. Every write is `repository.update(id, ...)`, which
    changes the row with that id, if there is one. */
module Users {
  import opened Results
  import opened Text
  import opened UserEntity

  // ---------------------------------------------------------------------------
  // findByEmailOrUsername
  // ---------------------------------------------------------------------------

  /** The columns the login lookup selects: `isEmailVerified` is not among
      them, so the loaded entity leaves it undefined. */
  datatype LoginRow = LoginRow(
    id: UserId,
    email: string,
    username: string,
    displayName: string,
    password: string,
    picture: Option<string>,
    googleId: Option<string>)

  function LoginColumns(u: User): (r: LoginRow)
    ensures r.id == u.id && r.email == u.email && r.username == u.username
    ensures r.password == u.password && r.picture == u.picture && r.googleId == u.googleId
  {
    LoginRow(u.id, u.email, u.username, u.displayName, u.password, u.picture, u.googleId)
  }

  /** The first row whose e-mail address or username is the identifier. */
  function FindByIdentifier(users: UserTable, identifier: string): (r: Option<User>)
    ensures r.None? <==>
      forall i :: 0 <= i < |users| ==> users[i].email != identifier && users[i].username != identifier
    ensures r.Some? ==> exists i :: 0 <= i < |users| && users[i] == r.value
    ensures r.Some? ==> r.value.email == identifier || r.value.username == identifier
  {
    FindFirst(users, (u: User) => u.email == identifier || u.username == identifier)
  }

  /** `findByEmailOrUsername`: that row, read through the login column list. */
  function FindByEmailOrUsername(users: UserTable, identifier: string): (r: Option<LoginRow>)
    ensures r.None? <==> FindByIdentifier(users, identifier).None?
    ensures r.Some? ==> r.value == LoginColumns(FindByIdentifier(users, identifier).value)
  {
    match FindByIdentifier(users, identifier)
    case None => None
    case Some(u) => Some(LoginColumns(u))
  }

  /** Under the unique constraints, a user is found by their e-mail address
      and by their username, unless another row's username is the address or
      another row's address is the username. */
  lemma FindByEmailOrUsernameFindsOwner(users: UserTable, k: nat)
    requires Unique(users) && k < |users|
    requires forall i :: 0 <= i < |users| && i != k ==> users[i].username != users[k].email
    requires forall i :: 0 <= i < |users| && i != k ==> users[i].email != users[k].username
    ensures FindByIdentifier(users, users[k].email) == Some(users[k])
    ensures FindByIdentifier(users, users[k].username) == Some(users[k])
    ensures FindByEmailOrUsername(users, users[k].email) == Some(LoginColumns(users[k]))
  {
  }

  // ---------------------------------------------------------------------------
  // create
  // ---------------------------------------------------------------------------

  /** The avatar a user without a picture gets, named after their display name. */
  function DefaultAvatar(displayName: string): string {
    "https://ui-avatars.com/api/?name=" + displayName + "&background=0D8ABC&color=fff"
  }

  /** `create`: a missing or empty picture is replaced by the default avatar
      before the row is inserted. */
  function CreateUser(users: UserTable, id: UserId, data: NewUser): (r: Result<(UserTable, User)>)
    requires FindById(users, id).None?
    ensures r.Err? <==> FindByEmail(users, data.email).Some? || FindByUsername(users, data.username).Some?
    ensures r.Ok? ==> r.value.0 == users + [r.value.1]
    ensures r.Ok? ==> r.value.1.picture == (if Truthy(data.picture) then data.picture else Some(DefaultAvatar(data.displayName)))
    ensures r.Ok? ==> r.value.1 == NewRow(id, data.(picture := r.value.1.picture))
    ensures r.Ok? && Unique(users) ==> Unique(r.value.0)
  {
    var picture := if Truthy(data.picture) then data.picture else Some(DefaultAvatar(data.displayName));
    Insert(users, id, data.(picture := picture))
  }

  // ---------------------------------------------------------------------------
  // Token writes
  // ---------------------------------------------------------------------------

  /** `updateVerificationInfo`: stores a new verification id and its expiry
      on the user's row, replacing any earlier one; no other row and no other
      column changes. */
  function UpdateVerificationInfo(users: UserTable, userId: UserId, verificationId: string, expires: Millis): (r: UserTable)
    ensures |r| == |users|
    ensures forall i :: 0 <= i < |users| && users[i].id != userId ==> r[i] == users[i]
    ensures forall i :: 0 <= i < |users| && users[i].id == userId ==>
      && r[i].verificationId == Some(verificationId) && r[i].verificationExpires == Some(expires)
      && r[i].(verificationId := users[i].verificationId, verificationExpires := users[i].verificationExpires) == users[i]
    ensures Unique(users) ==> Unique(r)
  {
    var f := (u: User) => u.(verificationId := Some(verificationId), verificationExpires := Some(expires));
    assert Unique(users) ==> Unique(UpdateWhere(users, userId, f)) by {
      if Unique(users) { UpdateWhereKeepsUnique(users, userId, f); }
    }
    UpdateWhere(users, userId, f)
  }

  /** `markEmailAsVerified`: the user's address counts as verified and the
      verification id and expiry are cleared; nothing else changes. */
  function MarkEmailAsVerified(users: UserTable, userId: UserId): (r: UserTable)
    ensures |r| == |users|
    ensures forall i :: 0 <= i < |users| && users[i].id != userId ==> r[i] == users[i]
    ensures forall i :: 0 <= i < |users| && users[i].id == userId ==>
      && r[i].isEmailVerified && r[i].verificationId.None? && r[i].verificationExpires.None?
      && r[i].(isEmailVerified := users[i].isEmailVerified, verificationId := users[i].verificationId,
               verificationExpires := users[i].verificationExpires) == users[i]
    ensures Unique(users) ==> Unique(r)
  {
    var f := (u: User) => u.(isEmailVerified := true, verificationId := None, verificationExpires := None);
    assert Unique(users) ==> Unique(UpdateWhere(users, userId, f)) by {
      if Unique(users) { UpdateWhereKeepsUnique(users, userId, f); }
    }
    UpdateWhere(users, userId, f)
  }

  /** `updateResetPasswordInfo`: stores a new reset id and its expiry on the
      user's row, replacing any earlier one; nothing else changes. */
  function UpdateResetPasswordInfo(users: UserTable, userId: UserId, resetId: string, expires: Millis): (r: UserTable)
    ensures |r| == |users|
    ensures forall i :: 0 <= i < |users| && users[i].id != userId ==> r[i] == users[i]
    ensures forall i :: 0 <= i < |users| && users[i].id == userId ==>
      && r[i].resetPasswordToken == Some(resetId) && r[i].resetPasswordExpires == Some(expires)
      && r[i].(resetPasswordToken := users[i].resetPasswordToken, resetPasswordExpires := users[i].resetPasswordExpires) == users[i]
    ensures Unique(users) ==> Unique(r)
  {
    var f := (u: User) => u.(resetPasswordToken := Some(resetId), resetPasswordExpires := Some(expires));
    assert Unique(users) ==> Unique(UpdateWhere(users, userId, f)) by {
      if Unique(users) { UpdateWhereKeepsUnique(users, userId, f); }
    }
    UpdateWhere(users, userId, f)
  }

  /** `updatePassword`: stores the new hash and clears the reset id and
      expiry, so no reset link issued before works afterwards. */
  function UpdatePassword(users: UserTable, userId: UserId, hashedPassword: string): (r: UserTable)
    ensures |r| == |users|
    ensures forall i :: 0 <= i < |users| && users[i].id != userId ==> r[i] == users[i]
    ensures forall i :: 0 <= i < |users| && users[i].id == userId ==>
      && r[i].password == hashedPassword && r[i].resetPasswordToken.None? && r[i].resetPasswordExpires.None?
      && r[i].(password := users[i].password, resetPasswordToken := users[i].resetPasswordToken,
               resetPasswordExpires := users[i].resetPasswordExpires) == users[i]
    ensures Unique(users) ==> Unique(r)
  {
    var f := (u: User) => u.(password := hashedPassword, resetPasswordToken := None, resetPasswordExpires := None);
    assert Unique(users) ==> Unique(UpdateWhere(users, userId, f)) by {
      if Unique(users) { UpdateWhereKeepsUnique(users, userId, f); }
    }
    UpdateWhere(users, userId, f)
  }

  /** A lookup by id after each of the four token writes finds the written
      row. */
  lemma TokenWritesOnRow(users: UserTable, k: nat, vid: string, rid: string, expires: Millis, hash: string)
    requires Unique(users) && k < |users|
    ensures var (u, id) := (users[k], users[k].id);
      && FindById(UpdateVerificationInfo(users, id, vid, expires), id)
           == Some(u.(verificationId := Some(vid), verificationExpires := Some(expires)))
      && FindById(MarkEmailAsVerified(users, id), id)
           == Some(u.(isEmailVerified := true, verificationId := None, verificationExpires := None))
      && FindById(UpdateResetPasswordInfo(users, id, rid, expires), id)
           == Some(u.(resetPasswordToken := Some(rid), resetPasswordExpires := Some(expires)))
      && FindById(UpdatePassword(users, id, hash), id)
           == Some(u.(password := hash, resetPasswordToken := None, resetPasswordExpires := None))
  {
    var id := users[k].id;
    FindUniqueRow(UpdateVerificationInfo(users, id, vid, expires), k);
    FindUniqueRow(MarkEmailAsVerified(users, id), k);
    FindUniqueRow(UpdateResetPasswordInfo(users, id, rid, expires), k);
    FindUniqueRow(UpdatePassword(users, id, hash), k);
  }

  // ---------------------------------------------------------------------------
  // updateDisplayName
  // ---------------------------------------------------------------------------

  const DisplayNameTooShort := "Display name is too short"

  /** The name is refused when it is empty or has fewer than two UTF-16 units
      once trimmed. */
  predicate DisplayNameTooShortFor(displayName: string) {
    displayName == "" || Utf16Length(Trim(displayName)) < 2
  }

  /** `updateDisplayName`: a too-short name is refused with a plain `Error`
      (an internal server error to the client); any other name is stored as
      given, untrimmed. An unknown id changes nothing. */
  function UpdateDisplayName(users: UserTable, userId: UserId, displayName: string): (r: Result<UserTable>)
    ensures r.Err? <==> DisplayNameTooShortFor(displayName)
    ensures r.Err? ==> r.error == ServerError(DisplayNameTooShort)
    ensures r.Ok? ==> |r.value| == |users|
    ensures r.Ok? ==> forall i :: 0 <= i < |users| ==>
      r.value[i] == if users[i].id == userId then users[i].(displayName := displayName) else users[i]
    ensures r.Ok? && Unique(users) ==> Unique(r.value)
  {
    if DisplayNameTooShortFor(displayName) then
      Err(ServerError(DisplayNameTooShort))
    else
      var f := (u: User) => u.(displayName := displayName);
      assert Unique(users) ==> Unique(UpdateWhere(users, userId, f)) by {
        if Unique(users) { UpdateWhereKeepsUnique(users, userId, f); }
      }
      Ok(UpdateWhere(users, userId, f))
  }

  /** A name of only whitespace is refused however long it is, and padding a
      name with whitespace neither helps nor hurts a name that starts and ends
      with a visible character. */
  lemma DisplayNameWhitespace(displayName: string)
    ensures AllWhitespace(displayName) ==> DisplayNameTooShortFor(displayName)
    ensures |displayName| >= 2 && !IsJsWhitespace(displayName[0]) && !IsJsWhitespace(displayName[|displayName| - 1])
      ==> !DisplayNameTooShortFor(displayName)
  {
  }

  // ---------------------------------------------------------------------------
  // updateProfile
  // ---------------------------------------------------------------------------

  const UserNotFound := "User not found"
  const NoHeirForDeadSwitch := "Cannot enable Dead Switch without a heir email"

  /** The fields of a profile update; an absent field is left as stored. */
  datatype ProfilePatch = ProfilePatch(
    displayName: Option<string>,
    heirEmail: Option<string>,
    deadSwitchEnabled: Option<bool>,
    deadSwitchDurationHours: Option<int>)

  /** The row after the update writes the fields the patch carries. */
  function ApplyPatch(u: User, data: ProfilePatch): (v: User)
    ensures v.displayName == Overwrite(data.displayName, u.displayName)
    ensures v.heirEmail == (if data.heirEmail.Some? then data.heirEmail else u.heirEmail)
    ensures v.deadSwitchEnabled == Overwrite(data.deadSwitchEnabled, u.deadSwitchEnabled)
    ensures v.deadSwitchDurationHours == (if data.deadSwitchDurationHours.Some? then data.deadSwitchDurationHours else u.deadSwitchDurationHours)
    ensures v.(displayName := u.displayName, heirEmail := u.heirEmail, deadSwitchEnabled := u.deadSwitchEnabled,
               deadSwitchDurationHours := u.deadSwitchDurationHours) == u
  {
    u.(displayName := Overwrite(data.displayName, u.displayName),
       heirEmail := if data.heirEmail.Some? then data.heirEmail else u.heirEmail,
       deadSwitchEnabled := Overwrite(data.deadSwitchEnabled, u.deadSwitchEnabled),
       deadSwitchDurationHours := if data.deadSwitchDurationHours.Some? then data.deadSwitchDurationHours else u.deadSwitchDurationHours)
  }

  /** The guard: a patch that switches the dead switch on needs a non-empty
      heir address, in the patch or else on the stored row. */
  predicate MissingHeir(u: User, data: ProfilePatch) {
    data.deadSwitchEnabled == Some(true)
    && !Truthy(if Truthy(data.heirEmail) then data.heirEmail else u.heirEmail)
  }

  /** `updateProfile` as written: an unknown user is NotFound; a patch that
      switches the dead switch on without a heir anywhere is refused; any
      other patch is written and the row is read back without its password. */
  function UpdateProfile(users: UserTable, userId: UserId, data: ProfilePatch): (r: Result<(UserTable, PublicUser)>)
    ensures FindById(users, userId).None? ==> r == Err(NotFound(UserNotFound))
    ensures FindById(users, userId).Some? && MissingHeir(FindById(users, userId).value, data)
      ==> r == Err(BadRequest(NoHeirForDeadSwitch))
    ensures r.Ok? <==> FindById(users, userId).Some? && !MissingHeir(FindById(users, userId).value, data)
    ensures r.Ok? ==> r.value.0 == UpdateWhere(users, userId, (u: User) => ApplyPatch(u, data))
    ensures r.Ok? && Unique(users) ==>
      && Unique(r.value.0)
      && r.value.1 == DefaultSelect(ApplyPatch(FindById(users, userId).value, data))
  {
    match FindById(users, userId)
    case None => Err(NotFound(UserNotFound))
    case Some(u) =>
      if MissingHeir(u, data) then Err(BadRequest(NoHeirForDeadSwitch))
      else
        var f := (v: User) => ApplyPatch(v, data);
        assert Unique(users) ==> Unique(UpdateWhere(users, userId, f)) by {
          if Unique(users) {
            var k := RowOfId(users, userId);
            FindByIdAfterUpdate(users, userId, f, k);
          }
        }
        Ok((UpdateWhere(users, userId, f), DefaultSelect(f(u))))
  }

  /** An account whose dead switch is on has a heir to alert. */
  predicate HeirForDeadSwitch(u: User) {
    u.deadSwitchEnabled ==> Truthy(u.heirEmail)
  }

  /** The guard keeps an account that switches the dead switch on with a
      heir in the patch, or with a stored heir and no heir in the patch. */
  lemma UpdateProfileEnablingHasHeir(users: UserTable, userId: UserId, data: ProfilePatch)
    requires Unique(users)
    requires UpdateProfile(users, userId, data).Ok?
    requires data.deadSwitchEnabled == Some(true)
    requires Truthy(data.heirEmail) || data.heirEmail.None?
    ensures var v := UpdateProfile(users, userId, data).value.1;
      v.deadSwitchEnabled && Truthy(v.heirEmail)
  {
  }

  /** The discrepancy: for any account with a stored heir, a patch that
      switches the dead switch on and blanks the heir address passes the
      guard, because a heir is stored, and then writes the blank over it,
      leaving the switch on with no heir. */
  lemma UpdateProfileCanDropHeir(users: UserTable, k: nat, data: ProfilePatch)
    requires Unique(users) && k < |users|
    requires Truthy(users[k].heirEmail)
    requires data.deadSwitchEnabled == Some(true) && data.heirEmail == Some("")
    ensures var r := UpdateProfile(users, users[k].id, data);
      && r.Ok?
      && r.value.1.deadSwitchEnabled && !Truthy(r.value.1.heirEmail)
      && !HeirForDeadSwitch(FindById(r.value.0, users[k].id).value)
      && UpdateProfileGuarded(users, users[k].id, data) == Err(BadRequest(NoHeirForDeadSwitch))
  {
    var id := users[k].id;
    FindUniqueRow(users, k);
    FindByIdAfterUpdate(users, id, (v: User) => ApplyPatch(v, data), k);
  }

  /** `updateProfile` with the guard applied to the row as it will be
      written: the update is refused whenever it would leave the dead switch
      on without a heir address. */
  function UpdateProfileGuarded(users: UserTable, userId: UserId, data: ProfilePatch): (r: Result<(UserTable, PublicUser)>)
    ensures FindById(users, userId).None? ==> r == Err(NotFound(UserNotFound))
    ensures r.Ok? <==>
      FindById(users, userId).Some? && HeirForDeadSwitch(ApplyPatch(FindById(users, userId).value, data))
    ensures r.Err? && FindById(users, userId).Some? ==> r.error == BadRequest(NoHeirForDeadSwitch)
    ensures r.Ok? ==> r.value.0 == UpdateWhere(users, userId, (u: User) => ApplyPatch(u, data))
    ensures r.Ok? && Unique(users) ==>
      && Unique(r.value.0)
      && r.value.1 == DefaultSelect(ApplyPatch(FindById(users, userId).value, data))
  {
    match FindById(users, userId)
    case None => Err(NotFound(UserNotFound))
    case Some(u) =>
      if !HeirForDeadSwitch(ApplyPatch(u, data)) then Err(BadRequest(NoHeirForDeadSwitch))
      else
        var f := (v: User) => ApplyPatch(v, data);
        assert Unique(users) ==> Unique(UpdateWhere(users, userId, f)) by {
          if Unique(users) {
            var k := RowOfId(users, userId);
            FindByIdAfterUpdate(users, userId, f, k);
          }
        }
        Ok((UpdateWhere(users, userId, f), DefaultSelect(f(u))))
  }

  /** The corrected update keeps every account with its dead switch on
      supplied with a heir, and it refuses every patch the code as written
      refuses. */
  lemma UpdateProfileGuardedKeepsHeir(users: UserTable, userId: UserId, data: ProfilePatch)
    requires Unique(users)
    requires forall i :: 0 <= i < |users| ==> HeirForDeadSwitch(users[i])
    ensures UpdateProfileGuarded(users, userId, data).Ok? ==>
      var after := UpdateProfileGuarded(users, userId, data).value.0;
      forall i :: 0 <= i < |after| ==> HeirForDeadSwitch(after[i])
    ensures UpdateProfile(users, userId, data).Err? ==> UpdateProfileGuarded(users, userId, data).Err?
  {
    var r := UpdateProfileGuarded(users, userId, data);
    if r.Ok? {
      var u := FindById(users, userId).value;
      var after := r.value.0;
      forall i | 0 <= i < |after| ensures HeirForDeadSwitch(after[i]) {
        if users[i].id == userId {
          FindUniqueRow(users, i);
          assert after[i] == ApplyPatch(u, data);
        }
      }
    }
  }
}
